=== FILE: README.md ===
# go-subcommand: a Dafny model of the argument parser

This project models the core of `subcommand.go`, a git-style command-line
parser for Go. A program builds a `Parser` named after itself. It registers
global flags on the parser, sub-commands with their own flags, and a help
command. `Parse` then walks the argument list once, left to right, with one
current command scope. A token starting with `-` is a flag. It is resolved
only in the current scope: `--x` in the long map, `-x` in the short map. An
option takes the next token as its value; a switch takes nothing. A plain
token first runs the mandatory-flag check of the current scope. Then it
switches to a registered command, or to the help node, or it becomes a
leftover. Every recognised flag and command queues a call. `Parse` runs the
queue, in recognition order, only when the whole scan succeeded. Every
command call receives the final list of leftovers.

Layout (one module per file):

- `wrappers.dfy` (`Wrappers`): `Option` and `Result`.
- `flag.dfy` (`Flags`): the flag value object, `strings.Trim`, `checkDefinition`, `buildFlag`, `Must`.
- `command.dfy` (`Commands`): command nodes, the two-map flag registry, `addFlag`, `AddOption`, `AddSwitch`, `Flags`.
- `parser.dfy` (`Parsers`): `NewParser`, `SetHelp`, `AddCommand`, flag operations on one node, and the choice the default help makes.
- `scanner.dfy` (`Scanner`): the scan `parse`, `checkVisited`, `Parse`, and two loops written like the Go code, each proved equal to the functional definition.
- `scan_properties.dfy` (`ScanProperties`): per-token rules and properties that hold for every parser and every argument list.
- `command_line.dfy` (`CommandLines`): the round trip. A well-formed command line is rendered to tokens and parsed back.
- `scenarios.dfy` (`Scenarios`): concrete parsers, proved equal to what the construction functions build, and argument lists run through them.

User callbacks are opaque, so a callback is kept only as an identity
(`NilCallback`, `DefaultHelp`, or `UserCallback(id)`). `Parse` returns the
calls it would make, as `FlagInvoked(callback, long, value)` and
`CommandInvoked(callback, name, leftovers)`. On failure it returns the error
and the leftovers collected so far, and no calls. The source panics on
construction errors; here they are `Err` results.

The model follows the code, including where it does less than the
comment on `Parse` (subcommand.go:170-172) suggests, which says errors are
returned when "a mandatory flag was not supplied":

- The code has no mandatory check when the input ends. `["deploy"]` succeeds even when `deploy` has a mandatory flag.
- A command's callback is queued when the command token is seen. So it runs before the callbacks of the command's own flags.
- The mandatory check matches by long name against the flags seen in every scope so far, not only the current one.
- A token equal to the help node's name enters the help node, from any scope including help itself, unless a registered command of that name is dispatched first. `AddCommand` accepts such a command, and the command test comes before the help test.
- A registered command name is a leftover when the current scope has the same name as the help node, unless it is also the help name, in which case it enters help. The comparison is by name, so a root named like the help node never dispatches a command.
- An empty short name is refused.
- `AddCommand` does not check the name against the help node's name.
- A command receives every leftover of the parse, including those that came before it.
- There are no arity checks and no callback errors.

## Model

| member | source | states |
|---|---|---|
| Flags.Trim | subcommand.go:324-325 | The result has no space at either end, and the input is the result padded with spaces on both sides. |
| Flags.TrimPadded | subcommand.go:324-325 | Trimming a one-word definition padded with any number of spaces on either side gives back that word. |
| Flags.BuildFlag | subcommand.go:316-348 | Building succeeds iff both trimmed definitions are non-empty single words. The result then has the trimmed names, the given kind, description and callback, and is not mandatory. An empty long definition is reported as such. An empty short definition is reported as such exactly when the long one is not empty, since the long definition is checked first. A long definition with spaces is reported exactly when both are non-empty. A refusal for spaces names the offending trimmed definition. |
| Flags.BuildFlagAsWritten | subcommand.go:316-348 | Accepts exactly what `BuildFlag` accepts and builds the same flag. It raises the multi-word short refusal exactly when `BuildFlag` does, and that refusal names the long definition. Every other refusal equals `BuildFlag`'s. |
| Flags.ShortMessageAlwaysNamesLong | subcommand.go:337-339 | For every input refused for a multi-word short definition, the as-written message names the trimmed long definition, which differs from the offending short one. The corrected message names the short one. |
| Flags.ShortMessageNamesLong | subcommand.go:337-339 | With long "a" and short "b c", the as-written refusal names "a"; the corrected one names "b c". |
| Flags.Must | subcommand.go:289-293 | Sets the mandatory mark to the given value and changes nothing else. |
| Commands.NewCommand | subcommand.go:51-60 | A new node has empty long and short maps, the given name, description, callback and parent, and a consistent registry. |
| Commands.AddFlag | subcommand.go:151-164 | Fails iff the long name is in the long map or the short name is in the short map, reporting the long duplicate first. On success both maps gain exactly this flag under its names, every old entry is kept, and nothing else changes. |
| Commands.AddFlagKeepsConsistent | subcommand.go:151-164 | Adding a flag with valid names keeps the registry consistent: both maps hold the same flags, each under its own names. |
| Commands.NamespacesAreSeparate | subcommand.go:154-162 | A flag whose long name is already some flag's short name is still accepted. Its long name then keys both maps, the long map for the new flag and the short map for the old one. |
| Commands.AddKind | subcommand.go:130-149 | Building and registering succeeds iff both trimmed names are valid and free in their maps. The new flag is then stored in both maps, and the node's name, description, callback and parent are kept, as is consistency. |
| Commands.AddOption | subcommand.go:130-134 | Registers a non-mandatory Option under the trimmed names and returns it. |
| Commands.AddSwitch | subcommand.go:145-149 | Registers a non-mandatory Switch under the trimmed names and returns it. |
| Commands.MustFlag | subcommand.go:291-293 | Marking a registered flag changes that flag under its long name and under its short name alike. Every other entry is unchanged. |
| Commands.MustFlagKeepsConsistent | subcommand.go:291-293 | Marking a flag keeps the registry consistent and keeps the short map's keys. |
| Commands.AllFlags | subcommand.go:35-42 | In a consistent registry, the flags are exactly those stored under their own long name, and every flag of the short map is among them. |
| Parsers.SetHelp | subcommand.go:63-68 | Replaces the help node with one that has the given name and callback, empty flag maps and the root as parent. Root and commands are unchanged and well-formedness is kept. |
| Parsers.NewParser | subcommand.go:76-83 | A new parser is well-formed. Its root is named after the program and has no flags. It has no commands, and its help node is named "help" and runs the default help. |
| Parsers.AddCommand | subcommand.go:110-119 | Fails iff the name is already registered. Otherwise exactly that name is added, bound to a node with empty flag maps, the given callback and the root as parent. Every other part of the parser is unchanged and well-formedness is kept. |
| Parsers.AddFlagIn | subcommand.go:130-149 | Adding an option or switch to one node of the parser changes only that node, exactly as `AddKind` does, and keeps the parser well-formed. |
| Parsers.MustIn | subcommand.go:289-293 | Marking a flag of one node sets the mark and keeps the parser well-formed. Every other command, and the root or help node when not designated, is unchanged. |
| Parsers.DefaultHelpPage | subcommand.go:85-97 | Help shows a command's usage iff the first leftover is a registered command. It shows the whole parser's usage alone iff there are no leftovers. Otherwise it reports the first leftover as not found. |
| Scanner.LookupFlag | subcommand.go:196-203 | A token starting with "--" is found iff the rest after two characters is a key of the long map, and then the result is the flag stored under that key. Any other flag token is found iff the rest after one character is a key of the short map, and then the result is the flag stored under that key. |
| Scanner.MissingMandatoryFlags | subcommand.go:254-271 | In a consistent scope, a name is reported iff it is the long name of a mandatory flag of that scope that no visited long name matches. |
| Scanner.Parse | subcommand.go:174-185 | On success every command call receives exactly the returned leftovers. |
| Scanner.ScanLoop | subcommand.go:188-245 | The index loop with a mutable current command computes exactly the recursive scan `Scan`. |
| Scanner.ParseLoop | subcommand.go:174-185 | Scanning and then calling every queued function in order gives exactly `Parse`. |
| ScanProperties.LeftoversInOrder | subcommand.go:228-238 | The scan only appends leftovers. What it appends is a subsequence of the remaining tokens, and each is a plain token other than the help name. This holds on failure too. |
| ScanProperties.ParseLeftoversInOrder | subcommand.go:174-185 | The leftovers `Parse` returns, with or without an error, are plain tokens of the arguments, other than the help name, in their original order. |
| ScanProperties.LeftoversComplete | subcommand.go:196-238 | The converse direction: when the scan succeeds, every token that is not a flag, not a registered command name, not the help name and does not directly follow a flag token (so cannot be an option value) is among the leftovers it adds, in order. |
| ScanProperties.ParseLeftoversComplete | subcommand.go:174-185 | For a successful `Parse`, those same tokens of the argument list are all among the returned leftovers, in their original order. |
| ScanProperties.MissingMandatoryNeedsPlainToken | subcommand.go:222-227 | A scan that fails for a missing mandatory flag had a plain token in the input, and reports a non-empty set of names. |
| ScanProperties.FlagTokensNeverMissMandatory | subcommand.go:194-245 | If every token starts with '-', the parse never fails for a missing mandatory flag. |
| ScanProperties.FailureSurvivesMoreInput | subcommand.go:204-227 | After a failure for an unknown flag or a missing mandatory flag, appending tokens changes neither the error nor the leftovers. |
| ScanProperties.RootOnlyStartsTheScan | subcommand.go:192-235 | Replacing the root node does not change a scan that is already under way: no token leads back to the root. |
| ScanProperties.UnknownFlagAborts | subcommand.go:204-208 | A flag token that misses the current scope's map stops the scan with that token, the scope's name and the leftovers so far. |
| ScanProperties.BareDashesMiss | subcommand.go:199-203 | In a consistent scope "-" and "--" are never found. |
| ScanProperties.TokensFindTheirFlag | subcommand.go:199-203 | "--" plus a registered long name finds that flag. "-" plus its short name finds it too, when the short name does not start with '-'. |
| ScanProperties.DashedShortNameIsReadAsLong | subcommand.go:199-203 | A short name starting with '-' is read through the long map. Its short form finds the flag only if the rest of the short name is the flag's long name. |
| ScanProperties.StepSwitch | subcommand.go:217-221 | A switch consumes one token and queues a call under its long name with value "". Its long name is marked visited. |
| ScanProperties.StepOption | subcommand.go:210-216 | An option consumes the next token as its value, whatever it is. It queues a call under its long name and marks that name visited. |
| ScanProperties.OptionWithoutValue | subcommand.go:211-214 | An option that is the last token fails with a missing value. |
| ScanProperties.PlainTokenChecksMandatory | subcommand.go:222-227 | A plain token in a scope with unvisited mandatory flags ends the scan with those flags and the scope's name, keeping the leftovers so far. |
| ScanProperties.PlainTokenDispatchesCommand | subcommand.go:228-232 | With no mandatory flag missing, a registered command name switches to that command and queues its call, unless the current scope carries the help name. |
| ScanProperties.PlainTokenEntersHelp | subcommand.go:233-235 | Otherwise the help name switches to the help node and queues the help call, from any scope, help included. |
| ScanProperties.PlainTokenIsLeftover | subcommand.go:236-238 | Any other plain token is appended to the leftovers and nothing else changes. |
| ScanProperties.HelpTreatsCommandNamesAsLeftovers | subcommand.go:228-235 | After the help name, a registered command name is a leftover. Help runs once with it, and the default help picks that command's usage. |
| CommandLines.ScanUses | subcommand.go:196-221 | Scanning rendered flag uses queues one call per use, in order, under the long name even for a short-form token. The long names are marked visited and the scope does not change. |
| CommandLines.ScanOneUse | subcommand.go:204-221 | One rendered flag use, long or short form, resolves to its registered flag, consumes its value when it is an option, and queues its call under the long name. |
| CommandLines.ScanPositionals | subcommand.go:222-238 | Plain tokens that name no command and are not the help name become leftovers, in order, once the scope's mandatory flags are satisfied. |
| CommandLines.ParseRendered | subcommand.go:174-252 | Round trip: a valid command line, rendered and parsed, succeeds with its positionals as leftovers. It runs the global flag calls, then the command with all positionals, then the command's flag calls. |
| Scenarios.BuildWithArgument | subcommand.go:228-237 | `["build", "x.txt"]` runs `build` with `["x.txt"]`. |
| Scenarios.UnknownGlobalFlag | subcommand.go:204-208 | `["--unknown"]` fails with an unknown flag in scope "app", no leftovers and no calls. |
| Scenarios.MandatoryNotCheckedAtEnd | subcommand.go:242-244 | `["deploy"]` succeeds although `deploy` has a mandatory flag. |
| Scenarios.MandatoryCheckedAtPlainToken | subcommand.go:224-227 | `["deploy", "x"]` fails with the missing mandatory "target" in scope "deploy". |
| Scenarios.CommandRunsBeforeItsFlags | subcommand.go:210-232 | `["deploy", "-t", "prod"]` runs `deploy` first, then the target option under its long name with "prod". |
| Scenarios.OptionValueMayStartWithDash | subcommand.go:210-216 | `["deploy", "-t", "-v"]` gives the target option the value "-v". |
| Scenarios.DeployTakesValue | subcommand.go:210-232 | `["deploy", "-t", v]` runs `deploy`, then the target option with value `v`, for every string `v`. |
| Scenarios.VisitedSharedAcrossScopes | subcommand.go:255-271 | A global `--target` satisfies the mandatory `--target` of `deploy`. |
| Scenarios.CommandSeesEarlierLeftovers | subcommand.go:250-252 | `["a", "build", "b"]` runs `build` with `["a", "b"]`. |
| Scenarios.SecondCommandSwitchesAgain | subcommand.go:228-232 | `["build", "deploy"]` runs both commands. |
| Scenarios.HelpForCommand | subcommand.go:228-235 | `["help", "deploy"]` runs help with `["deploy"]`, and help shows the usage of `deploy`. |
| Scenarios.HelpReentered | subcommand.go:233-235 | `["help", "help"]` runs help twice. |
| Scenarios.RootMandatoryAtFirstPlainToken | subcommand.go:224-227 | With a mandatory global option, `["command"]` fails in the root scope. |
| Scenarios.MandatoryTestIsBuilt | subcommand.go:76-134 | The "test" parser is exactly what `NewParser("test")`, `AddOption` on the root and `Must(true)` on that option build. |
| Scenarios.AppIsBuilt | subcommand.go:76-149 | The example parsers are exactly what `NewParser("app")`, `AddSwitch`/`AddOption` on the root, `AddCommand` for "build" and "deploy", `AddOption` on deploy and `Must(true)` on that option build. |
| Scenarios.ShadowedIsBuilt | subcommand.go:110-119 | `AddCommand` registers a command named "help" on a new parser without complaint. |
| Scenarios.CommandNamedHelpShadowsHelp | subcommand.go:228-235 | With such a command, `["help"]` from the root runs that command, not the help node. |
| Scenarios.ShadowingCommandThenHelp | subcommand.go:228-235 | `["help", "help"]` runs that command and then the help node: inside a scope named like help, the command test is skipped and the help test matches. |

## Left out

- Help rendering (`visitParser`, `visitCommand`, `Flag.String`, `Command.String`, the printing in `defaultHelp`): formatted output whose order depends on Go map iteration. `Parsers.DefaultHelpPage` keeps only which page is chosen.
- `Help()` and the `Flagged` interface: accessors without behaviour of their own.
- Callback bodies: opaque side effects. A callback is kept only as an identity in the call trace. A nil callback that would panic when run is not distinguished.
- Scanner.MissingMandatoryFlags: reports the whole set of missing mandatory long names. The source reports one of them, chosen by map iteration order.
- Commands.AllFlags: returns a set; the source returns a slice whose order follows map iteration.
- Panics during construction: modelled as `Err` results, and `Must` as a requirement that the flag is registered. The source can only reach `Must` through a registered flag's pointer.
- Error message text: only the error kind, the token and the scope name are kept.
- The partial list of queued calls that `parse` returns on error: `Parse` discards it, so the model does not return it.

- ScanProperties.LeftoversInOrder: does not state that option values and dispatched command names are kept out of the leftovers. That is stated per token by `StepOption`, `PlainTokenDispatchesCommand` and `PlainTokenEntersHelp`, and for whole rendered command lines by `CommandLines.ParseRendered`; a scope-independent statement would have to replay the scan.
- ScanProperties.ParseLeftoversInOrder: the same exclusions are left to the per-token lemmas and `CommandLines.ParseRendered`.
- ScanProperties.LeftoversComplete: promises only the tokens whose role does not depend on the scope. A registered command name reached inside a scope named like help is also a leftover, and a token right after a switch can be one too; those are covered per token by `PlainTokenIsLeftover`.
- ScanProperties.ParseLeftoversComplete: promises the same scope-independent subset as `LeftoversComplete`. A token right after a switch, or a command name read in a scope named like help, is covered by `PlainTokenIsLeftover` and `CommandLines.ParseRendered`.
- Commands.AddKind: builds its flag with the corrected `Flags.BuildFlag`, so on the registration path (`AddOption`, `AddSwitch`, `Parsers.AddFlagIn`) a multi-word short definition is refused with the short definition in the error. The message as written at line 338 is modelled only by `Flags.BuildFlagAsWritten`.

## Findings

| source | as written | input that shows it | evidently intended | confidence | as-written member | corrected member |
|---|---|---|---|---|---|---|
| subcommand.go:337-339 | The refusal of a multi-word short definition formats the long definition into its message | long "a", short "b c": the message says "Short definition a has two words" | The message names the short definition "b c" | high, not executed | Flags.BuildFlagAsWritten | Flags.BuildFlag |

=== FILE: command.dfy ===
/**
  Command nodes and their flag registry: `newCommand`, `addFlag`,
  `AddOption`, `AddSwitch`, `Flags` and `Must` applied to a registered flag.
 */
module Commands {
  import opened Wrappers
  import opened Flags

  /** The non-owning parent link: only the root has none; every other node hangs off the root. */
  datatype Parent = NoParent | RootParent

  /**
    A named scope. `long` and `short` are the two lookup maps of its flag
    registry; `callback` runs when the command is dispatched to.
   */
  datatype Command = Command(
    name: string,
    description: string,
    long: map<string, Flag>,
    short: map<string, Flag>,
    callback: Callback,
    parent: Parent)

  /**
    Registry consistency: each flag sits under its own long name in `long`
    and under its own short name in `short`, the two maps hold the same
    flags, and every stored name is a single non-empty word.
   */
  predicate Consistent(c: Command) {
    && (forall k :: k in c.long ==>
          && c.long[k].long == k
          && ValidName(k)
          && ValidName(c.long[k].short)
          && c.long[k].short in c.short
          && c.short[c.long[k].short] == c.long[k])
    && (forall k :: k in c.short ==>
          && c.short[k].short == k
          && c.short[k].long in c.long
          && c.long[c.short[k].long] == c.short[k])
  }

  /** `newCommand`: a node with empty flag maps. */
  function NewCommand(parent: Parent, name: string, description: string, callback: Callback): (c: Command)
    ensures Consistent(c)
    ensures c.long == map[] && c.short == map[]
    ensures c.name == name && c.description == description && c.callback == callback && c.parent == parent
  {
    Command(name, description, map[], map[], callback, parent)
  }

  /**
    `addFlag`: refuses a long name already in the long map or a short name
    already in the short map, checking both before changing either; on
    success both maps gain exactly this flag.
   */
  function AddFlag(c: Command, f: Flag): (r: Result<Command, ConstructionError>)
    ensures r.Ok? <==> f.long !in c.long && f.short !in c.short
    ensures f.long in c.long ==> r == Err(DuplicateLong(f.long))
    ensures f.long !in c.long && f.short in c.short ==> r == Err(DuplicateShort(f.short))
    ensures r.Ok? ==>
              && r.value.long.Keys == c.long.Keys + {f.long}
              && r.value.short.Keys == c.short.Keys + {f.short}
              && r.value.long[f.long] == f && r.value.short[f.short] == f
              && (forall k :: k in c.long ==> r.value.long[k] == c.long[k])
              && (forall k :: k in c.short ==> r.value.short[k] == c.short[k])
              && r.value.(long := c.long, short := c.short) == c
  {
    if f.long in c.long then Err(DuplicateLong(f.long))
    else if f.short in c.short then Err(DuplicateShort(f.short))
    else Ok(c.(long := c.long[f.long := f], short := c.short[f.short := f]))
  }

  /** Adding a flag whose names are valid keeps the registry consistent. */
  lemma AddFlagKeepsConsistent(c: Command, f: Flag)
    requires Consistent(c)
    requires ValidName(f.long) && ValidName(f.short)
    requires AddFlag(c, f).Ok?
    ensures Consistent(AddFlag(c, f).value)
  {
    var d := AddFlag(c, f).value;
    forall k | k in d.long
      ensures d.long[k].short in d.short && d.short[d.long[k].short] == d.long[k]
    {
      if k != f.long {
        assert d.long[k] == c.long[k];
        assert c.long[k].short != f.short;
      }
    }
    forall k | k in d.short
      ensures d.short[k].long in d.long && d.long[d.short[k].long] == d.short[k]
    {
      if k != f.short {
        assert d.short[k] == c.short[k];
        assert c.short[k].long != f.long;
      }
    }
  }

  /**
    Long and short names are separate namespaces: a flag whose long name is
    some flag's short name (or whose short name is some flag's long name)
    is still accepted when the respective map does not hold it.
   */
  lemma NamespacesAreSeparate(c: Command, f: Flag)
    requires Consistent(c)
    requires f.long !in c.long && f.short !in c.short
    ensures AddFlag(c, f).Ok?
    ensures f.long in c.short ==> f.long in AddFlag(c, f).value.long && f.long in AddFlag(c, f).value.short
    ensures f.long in c.short ==> AddFlag(c, f).value.long[f.long] == f && AddFlag(c, f).value.short[f.long] == c.short[f.long]
  {
  }

  /** `buildFlag` followed by `addFlag`, as `AddOption` and `AddSwitch` both do. */
  function AddKind(c: Command, long: string, short: string, description: string, callback: Callback, kind: FlagType)
    : (r: Result<(Command, Flag), ConstructionError>)
    ensures r.Ok? <==>
              && ValidName(Trim(long)) && ValidName(Trim(short))
              && Trim(long) !in c.long && Trim(short) !in c.short
    ensures r.Ok? ==>
              && r.value.1 == Flag(Trim(long), Trim(short), description, kind, callback, false)
              && r.value.0.long == c.long[Trim(long) := r.value.1]
              && r.value.0.short == c.short[Trim(short) := r.value.1]
              && r.value.0.name == c.name
    ensures r.Ok? ==> r.value.0.(long := c.long, short := c.short) == c
    ensures r.Ok? && Consistent(c) ==> Consistent(r.value.0)
  {
    match BuildFlag(long, short, description, callback, kind)
    case Err(e) => Err(e)
    case Ok(f) =>
      match AddFlag(c, f)
      case Err(e) => Err(e)
      case Ok(d) =>
        assert Consistent(c) ==> Consistent(d) by {
          if Consistent(c) {
            assert ValidName(f.long) && ValidName(f.short);
            AddFlagKeepsConsistent(c, f);
          }
        }
        Ok((d, f))
  }

  /** `AddOption`: register a value-taking flag; the returned flag is what later calls of `Must` refer to. */
  function AddOption(c: Command, long: string, short: string, description: string, callback: Callback)
    : (r: Result<(Command, Flag), ConstructionError>)
    ensures r.Ok? <==> AddKind(c, long, short, description, callback, Option).Ok?
    ensures r.Ok? ==> r.value.1.kind == Option && !r.value.1.mandatory
    ensures r.Ok? ==> r.value.1.long == Trim(long) && r.value.1.short == Trim(short)
    ensures r.Ok? ==>
              && r.value.1.long in r.value.0.long && r.value.0.long[r.value.1.long] == r.value.1
              && r.value.1.short in r.value.0.short && r.value.0.short[r.value.1.short] == r.value.1
  {
    AddKind(c, long, short, description, callback, Option)
  }

  /** `AddSwitch`: register a flag that takes no value. */
  function AddSwitch(c: Command, long: string, short: string, description: string, callback: Callback)
    : (r: Result<(Command, Flag), ConstructionError>)
    ensures r.Ok? <==> AddKind(c, long, short, description, callback, Switch).Ok?
    ensures r.Ok? ==> r.value.1.kind == Switch && !r.value.1.mandatory
    ensures r.Ok? ==> r.value.1.long == Trim(long) && r.value.1.short == Trim(short)
    ensures r.Ok? ==>
              && r.value.1.long in r.value.0.long && r.value.0.long[r.value.1.long] == r.value.1
              && r.value.1.short in r.value.0.short && r.value.0.short[r.value.1.short] == r.value.1
  {
    AddKind(c, long, short, description, callback, Switch)
  }

  /**
    `Must` on a registered flag: the flag is shared by both maps of its
    command, so the mark shows under its long and its short name alike.
   */
  function MustFlag(c: Command, long: string, isIt: bool): (r: Command)
    requires long in c.long
    ensures r.long.Keys == c.long.Keys
    ensures r.short.Keys == c.short.Keys + {c.long[long].short}
    ensures r.long[long] == Must(c.long[long], isIt)
    ensures r.short[c.long[long].short] == Must(c.long[long], isIt)
    ensures forall k :: k in c.long && k != long ==> r.long[k] == c.long[k]
    ensures forall k :: k in c.short && k != c.long[long].short ==> r.short[k] == c.short[k]
    ensures r.(long := c.long, short := c.short) == c
  {
    var f := c.long[long];
    var g := Must(f, isIt);
    c.(long := c.long[long := g], short := c.short[f.short := g])
  }

  /** Marking a registered flag keeps the registry consistent. */
  lemma MustFlagKeepsConsistent(c: Command, long: string, isIt: bool)
    requires long in c.long
    requires Consistent(c)
    ensures Consistent(MustFlag(c, long, isIt))
    ensures MustFlag(c, long, isIt).short.Keys == c.short.Keys
  {
    assert Consistent(MustFlag(c, long, isIt)) by {
      MustKeepsShortSide(c, long, isIt);
      MustKeepsLongSide(c, long, isIt);
    }
    MustKeepsShortKeys(c, long, isIt);
  }

  lemma MustKeepsShortKeys(c: Command, long: string, isIt: bool)
    requires long in c.long && Consistent(c)
    ensures MustFlag(c, long, isIt).short.Keys == c.short.Keys
  {
    var s := c.long[long].short;
    var m := c.short[s := Must(c.long[long], isIt)];
    assert m.Keys == c.short.Keys by {
      forall k
        ensures k in m <==> k in c.short
      {
      }
    }
  }

  lemma MustKeepsShortSide(c: Command, long: string, isIt: bool)
    requires long in c.long && Consistent(c)
    ensures var r := MustFlag(c, long, isIt);
            forall k :: k in r.short ==> r.short[k].short == k && r.short[k].long in r.long && r.long[r.short[k].long] == r.short[k]
  {
    var f := c.long[long];
    var r := MustFlag(c, long, isIt);
    forall k | k in r.short
      ensures r.short[k].short == k && r.short[k].long in r.long && r.long[r.short[k].long] == r.short[k]
    {
      if k != f.short {
        assert r.short[k] == c.short[k];
        assert c.short[k].long != long;
      }
    }
  }

  lemma MustKeepsLongSide(c: Command, long: string, isIt: bool)
    requires long in c.long && Consistent(c)
    ensures var r := MustFlag(c, long, isIt);
            forall k :: k in r.long ==>
              && r.long[k].long == k && ValidName(k) && ValidName(r.long[k].short)
              && r.long[k].short in r.short && r.short[r.long[k].short] == r.long[k]
  {
    var f := c.long[long];
    var r := MustFlag(c, long, isIt);
    forall k | k in r.long
      ensures r.long[k].long == k && ValidName(k) && ValidName(r.long[k].short)
      ensures r.long[k].short in r.short && r.short[r.long[k].short] == r.long[k]
    {
      if k != long {
        assert c.long[k].short != f.short;
      }
    }
  }

  /** `Flags` (`AllFlags` here): the flags of the command, as held by its long map. */
  function AllFlags(c: Command): (r: set<Flag>)
    ensures Consistent(c) ==> forall f :: f in r <==> f.long in c.long && c.long[f.long] == f
    ensures Consistent(c) ==> forall k :: k in c.short ==> c.short[k] in r
  {
    c.long.Values
  }
}

=== FILE: command_line.dfy ===
/**
  A well-formed command line, rendered to tokens and parsed back: global
  flags, at most one command, that command's flags, and its positional
  arguments. Parsing the rendering yields the flag calls in token order,
  the command call right after the global flags (before its own flags),
  and the positional arguments as leftovers.
 */
module CommandLines {
  import opened Wrappers
  import opened Flags
  import opened Commands
  import opened Parsers
  import opened Scanner
  import opened ScanProperties

  /** One use of a flag, written in long form or, when `byShort`, in short form. */
  datatype FlagUse = FlagUse(long: string, value: string, byShort: bool)

  datatype CommandLine = CommandLine(
    globals: seq<FlagUse>,
    command: Option<string>,
    locals: seq<FlagUse>,
    positionals: seq<string>)

  /**
    A use the scope can read back: the flag is registered, a switch carries
    no value, and a short form is only used when the short name does not
    itself start with '-'.
   */
  predicate UsableIn(c: Command, u: FlagUse) {
    && u.long in c.long
    && (c.long[u.long].kind == Switch ==> u.value == "")
    && (u.byShort ==> !IsFlagToken(c.long[u.long].short))
  }

  predicate AllUsableIn(c: Command, us: seq<FlagUse>) {
    forall k :: 0 <= k < |us| ==> UsableIn(c, us[k])
  }

  function UseTokens(c: Command, u: FlagUse): seq<string>
    requires u.long in c.long
  {
    var f := c.long[u.long];
    [if u.byShort then "-" + f.short else "--" + f.long] + (if f.kind == Option then [u.value] else [])
  }

  function RenderUses(c: Command, us: seq<FlagUse>): seq<string>
    requires AllUsableIn(c, us)
  {
    if us == [] then [] else UseTokens(c, us[0]) + RenderUses(c, us[1..])
  }

  function Longs(us: seq<FlagUse>): seq<string> {
    if us == [] then [] else [us[0].long] + Longs(us[1..])
  }

  function UseCalls(c: Command, us: seq<FlagUse>): seq<Deferred>
    requires AllUsableIn(c, us)
  {
    if us == [] then [] else [DeferFlag(c.long[us[0].long].callback, us[0].long, us[0].value)] + UseCalls(c, us[1..])
  }

  function UseInvocations(c: Command, us: seq<FlagUse>): seq<Invocation>
    requires AllUsableIn(c, us)
  {
    if us == [] then [] else [FlagInvoked(c.long[us[0].long].callback, us[0].long, us[0].value)] + UseInvocations(c, us[1..])
  }

  /** A token the scope passes through as a leftover. */
  predicate Positional(p: Parser, scope: Command, t: string) {
    !IsFlagToken(t) && t != p.help.name && (t in p.commands ==> scope.name == p.help.name)
  }

  predicate AllPositional(p: Parser, scope: Command, ts: seq<string>) {
    forall k :: 0 <= k < |ts| ==> Positional(p, scope, ts[k])
  }

  /**
    The command lines the parser reads as intended. The mandatory flags of
    the root must be among the global flags as soon as a plain token
    follows them; those of the command only when a positional follows.
   */
  predicate ValidLine(p: Parser, cl: CommandLine) {
    && AllUsableIn(p.root, cl.globals)
    && match cl.command
       case None =>
         && cl.locals == []
         && AllPositional(p, p.root, cl.positionals)
         && (cl.positionals != [] ==> MissingMandatoryFlags(p.root, Longs(cl.globals)) == {})
       case Some(name) =>
         && name in p.commands
         && !IsFlagToken(name)
         && p.root.name != p.help.name
         && MissingMandatoryFlags(p.root, Longs(cl.globals)) == {}
         && AllUsableIn(p.commands[name], cl.locals)
         && AllPositional(p, p.commands[name], cl.positionals)
         && (cl.positionals != [] ==>
               MissingMandatoryFlags(p.commands[name], Longs(cl.globals) + Longs(cl.locals)) == {})
  }

  function Render(p: Parser, cl: CommandLine): seq<string>
    requires ValidLine(p, cl)
  {
    match cl.command
    case None => RenderUses(p.root, cl.globals) + cl.positionals
    case Some(name) =>
      RenderUses(p.root, cl.globals) + [name] + RenderUses(p.commands[name], cl.locals) + cl.positionals
  }

  /** What running the parsed line does: global flags, then the command, then its flags. */
  function Expected(p: Parser, cl: CommandLine): seq<Invocation>
    requires ValidLine(p, cl)
  {
    match cl.command
    case None => UseInvocations(p.root, cl.globals)
    case Some(name) =>
      UseInvocations(p.root, cl.globals)
      + [CommandInvoked(p.commands[name].callback, name, cl.positionals)]
      + UseInvocations(p.commands[name], cl.locals)
  }

  /**
    Scanning rendered flag uses in their scope queues one call per use, in
    order, under the flag's long name even for a short-form token, and
    records the long names as visited; the scope does not change.
   */
  lemma {:induction false} ScanUses(p: Parser, c: Command, us: seq<FlagUse>, tail: seq<string>, st: ScanState)
    requires Consistent(c) && st.scope == c && AllUsableIn(c, us)
    ensures Scan(p, RenderUses(c, us) + tail, st)
         == Scan(p, tail, st.(visited := st.visited + Longs(us), calls := st.calls + UseCalls(c, us)))
    decreases |us|
  {
    if us == [] {
      assert RenderUses(c, us) + tail == tail;
      assert st.(visited := st.visited + Longs(us), calls := st.calls + UseCalls(c, us)) == st;
    } else {
      var u := us[0];
      var more := RenderUses(c, us[1..]) + tail;
      var st' := st.(visited := st.visited + [u.long], calls := st.calls + [DeferFlag(c.long[u.long].callback, u.long, u.value)]);
      var st'' := st'.(visited := st'.visited + Longs(us[1..]), calls := st'.calls + UseCalls(c, us[1..]));
      assert st'' == st.(visited := st.visited + Longs(us), calls := st.calls + UseCalls(c, us)) by {
        Regroup(st.visited, [u.long], Longs(us[1..]));
        Regroup(st.calls, [DeferFlag(c.long[u.long].callback, u.long, u.value)], UseCalls(c, us[1..]));
      }
      calc {
        Scan(p, RenderUses(c, us) + tail, st);
        { Regroup(UseTokens(c, u), RenderUses(c, us[1..]), tail); }
        Scan(p, UseTokens(c, u) + more, st);
        { ScanOneUse(p, c, u, more, st); }
        Scan(p, more, st');
        { ScanUses(p, c, us[1..], tail, st'); }
        Scan(p, tail, st'');
      }
    }
  }

  /** One rendered use: its tokens resolve to the flag and queue its call. */
  lemma ScanOneUse(p: Parser, c: Command, u: FlagUse, more: seq<string>, st: ScanState)
    requires Consistent(c) && st.scope == c && UsableIn(c, u)
    ensures Scan(p, UseTokens(c, u) + more, st)
         == Scan(p, more, st.(visited := st.visited + [u.long], calls := st.calls + [DeferFlag(c.long[u.long].callback, u.long, u.value)]))
  {
    var f := c.long[u.long];
    var t := if u.byShort then "-" + f.short else "--" + f.long;
    assert LookupFlag(c, t) == Some(f) by {
      if u.byShort {
        assert t[1..] == f.short;
      } else {
        assert t[2..] == f.long;
      }
    }
    if f.kind == Option {
      assert UseTokens(c, u) + more == [t, u.value] + more;
      StepOption(p, t, u.value, more, st);
    } else {
      assert UseTokens(c, u) + more == [t] + more;
      StepSwitch(p, t, more, st);
    }
  }

  /** Positional tokens in a scope whose mandatory flags are satisfied all become leftovers. */
  lemma {:induction false} ScanPositionals(p: Parser, ts: seq<string>, st: ScanState)
    requires AllPositional(p, st.scope, ts)
    requires ts != [] ==> MissingMandatoryFlags(st.scope, st.visited) == {}
    ensures Scan(p, ts, st) == Scanned(st.calls, st.leftovers + ts)
    decreases |ts|
  {
    if ts == [] {
      assert st.leftovers + ts == st.leftovers;
    } else {
      var st' := st.(leftovers := st.leftovers + [ts[0]]);
      ScanPositionals(p, ts[1..], st');
      assert st'.leftovers + ts[1..] == st.leftovers + ts;
    }
  }

  lemma {:induction false} RunUseCalls(c: Command, us: seq<FlagUse>, l: seq<string>)
    requires AllUsableIn(c, us)
    ensures RunAll(UseCalls(c, us), l) == UseInvocations(c, us)
    decreases |us|
  {
    if us != [] {
      RunUseCalls(c, us[1..], l);
      assert UseCalls(c, us) == [UseCalls(c, us)[0]] + UseCalls(c, us[1..]);
    }
  }

  lemma RunConcat(a: seq<Deferred>, b: seq<Deferred>, l: seq<string>)
    ensures RunAll(a + b, l) == RunAll(a, l) + RunAll(b, l)
  {
  }

  /** The part of the round trip that follows the global flags, when a command is named. */
  lemma ScanCommandPart(p: Parser, cl: CommandLine, st1: ScanState)
    requires WellFormed(p) && ValidLine(p, cl) && cl.command.Some?
    requires st1.scope == p.root && st1.leftovers == []
    requires st1.visited == Longs(cl.globals)
    ensures Scan(p, [cl.command.value] + RenderUses(p.commands[cl.command.value], cl.locals) + cl.positionals, st1)
         == Scanned(st1.calls + [DeferCommand(p.commands[cl.command.value].callback, cl.command.value)]
                    + UseCalls(p.commands[cl.command.value], cl.locals), cl.positionals)
  {
    var name := cl.command.value;
    var cmd := p.commands[name];
    var after := RenderUses(cmd, cl.locals) + cl.positionals;
    var st2 := st1.(scope := cmd, calls := st1.calls + [DeferCommand(cmd.callback, name)]);
    var st3 := st2.(visited := st2.visited + Longs(cl.locals), calls := st2.calls + UseCalls(cmd, cl.locals));
    calc {
      Scan(p, [name] + RenderUses(cmd, cl.locals) + cl.positionals, st1);
      { Regroup([name], RenderUses(cmd, cl.locals), cl.positionals); }
      Scan(p, [name] + after, st1);
      { PlainTokenDispatchesCommand(p, name, after, st1); }
      Scan(p, after, st2);
      { ScanUses(p, cmd, cl.locals, cl.positionals, st2); }
      Scan(p, cl.positionals, st3);
      { ScanPositionals(p, cl.positionals, st3); assert [] + cl.positionals == cl.positionals; }
      Scanned(st3.calls, cl.positionals);
    }
  }

  lemma Regroup<T>(a: seq<T>, b: seq<T>, c: seq<T>)
    ensures a + b + c == a + (b + c)
  {
  }

  /** The calls the scan of a valid command line queues. */
  function ExpectedCalls(p: Parser, cl: CommandLine): seq<Deferred>
    requires ValidLine(p, cl)
  {
    match cl.command
    case None => UseCalls(p.root, cl.globals)
    case Some(name) =>
      UseCalls(p.root, cl.globals) + [DeferCommand(p.commands[name].callback, name)] + UseCalls(p.commands[name], cl.locals)
  }

  lemma ScanRendered(p: Parser, cl: CommandLine)
    requires WellFormed(p) && ValidLine(p, cl)
    ensures Scan(p, Render(p, cl), Initial(p)) == Scanned(ExpectedCalls(p, cl), cl.positionals)
  {
    var init := Initial(p);
    var gcalls := UseCalls(p.root, cl.globals);
    var st1 := init.(visited := Longs(cl.globals), calls := gcalls);
    assert init.(visited := init.visited + Longs(cl.globals), calls := init.calls + gcalls) == st1;
    match cl.command
    case None =>
      calc {
        Scan(p, Render(p, cl), init);
        { ScanUses(p, p.root, cl.globals, cl.positionals, init); }
        Scan(p, cl.positionals, st1);
        { ScanPositionals(p, cl.positionals, st1); assert [] + cl.positionals == cl.positionals; }
        Scanned(gcalls, cl.positionals);
      }
    case Some(name) =>
      var after := [name] + RenderUses(p.commands[name], cl.locals) + cl.positionals;
      calc {
        Scan(p, Render(p, cl), init);
        { Regroup(RenderUses(p.root, cl.globals) + [name], RenderUses(p.commands[name], cl.locals), cl.positionals);
          Regroup(RenderUses(p.root, cl.globals), [name], RenderUses(p.commands[name], cl.locals) + cl.positionals);
          Regroup([name], RenderUses(p.commands[name], cl.locals), cl.positionals); }
        Scan(p, RenderUses(p.root, cl.globals) + after, init);
        { ScanUses(p, p.root, cl.globals, after, init); }
        Scan(p, after, st1);
        { ScanCommandPart(p, cl, st1); }
        Scanned(gcalls + [DeferCommand(p.commands[name].callback, name)] + UseCalls(p.commands[name], cl.locals), cl.positionals);
      }
  }

  lemma RunExpected(p: Parser, cl: CommandLine)
    requires ValidLine(p, cl)
    ensures RunAll(ExpectedCalls(p, cl), cl.positionals) == Expected(p, cl)
  {
    RunUseCalls(p.root, cl.globals, cl.positionals);
    match cl.command
    case None =>
    case Some(name) =>
      var gcalls := UseCalls(p.root, cl.globals);
      var d := DeferCommand(p.commands[name].callback, name);
      var lcalls := UseCalls(p.commands[name], cl.locals);
      RunUseCalls(p.commands[name], cl.locals, cl.positionals);
      RunConcat(gcalls + [d], lcalls, cl.positionals);
      RunConcat(gcalls, [d], cl.positionals);
  }

  /**
    Round trip: parsing the rendering of a valid command line succeeds,
    returns its positional arguments as leftovers, and runs exactly the
    expected calls in the expected order.
   */
  lemma ParseRendered(p: Parser, cl: CommandLine)
    requires WellFormed(p) && ValidLine(p, cl)
    ensures Parse(p, Render(p, cl)) == Parsed(Expected(p, cl), cl.positionals)
  {
    ScanRendered(p, cl);
    RunExpected(p, cl);
  }
}

=== FILE: flag.dfy ===
/**
  Flags: the value object describing one option or switch, and the
  validation applied to its long and short definitions when it is built
  (`buildFlag`, `checkDefinition` and `Must` in subcommand.go).
 */
module Flags {
  import opened Wrappers

  /** Options take the following token as their value; switches take nothing. */
  datatype FlagType = Option | Switch

  /**
    The function a flag or command runs once parsing has succeeded. Its body
    is opaque, so only its identity is kept: the Go `nil` function, the help
    closure installed by `NewParser`, or a caller-supplied function.
   */
  datatype Callback = NilCallback | DefaultHelp | UserCallback(id: nat)

  datatype Flag = Flag(
    long: string,
    short: string,
    description: string,
    kind: FlagType,
    callback: Callback,
    mandatory: bool)

  /** The programming mistakes the construction API refuses (the source panics on each). */
  datatype ConstructionError =
    | EmptyLong
    | EmptyShort
    | LongHasSpaces(definition: string)
    | ShortHasSpaces(definition: string)
    | DuplicateLong(long: string)
    | DuplicateShort(short: string)
    | DuplicateCommand(name: string)

  /** `n` space characters. */
  function Spaces(n: nat): (r: string)
    ensures |r| == n
    ensures forall k :: 0 <= k < n ==> r[k] == ' '
  {
    if n == 0 then "" else " " + Spaces(n - 1)
  }

  /** A definition is one word when splitting it on " " yields a single part. */
  predicate CheckDefinition(s: string) {
    ' ' !in s
  }

  /** A definition the parser can store: non-empty and a single word. */
  predicate ValidName(s: string) {
    |s| > 0 && CheckDefinition(s)
  }

  function TrimLeft(s: string): (r: string)
    ensures |r| <= |s|
    ensures s == Spaces(|s| - |r|) + r
    ensures r == [] || r[0] != ' '
  {
    if |s| > 0 && s[0] == ' ' then
      var r := TrimLeft(s[1..]);
      assert s == [' '] + s[1..];
      r
    else s
  }

  function TrimRight(s: string): (r: string)
    ensures |r| <= |s|
    ensures s == r + Spaces(|s| - |r|)
    ensures r == [] || r[|r| - 1] != ' '
  {
    if |s| > 0 && s[|s| - 1] == ' ' then
      var r := TrimRight(s[..|s| - 1]);
      assert Spaces(|s| - |r|) == Spaces(|s| - 1 - |r|) + " " by {
        SpacesSnoc(|s| - 1 - |r|);
      }
      assert s == s[..|s| - 1] + [' '];
      r
    else s
  }

  lemma {:induction false} SpacesSnoc(n: nat)
    ensures Spaces(n + 1) == Spaces(n) + " "
  {
    if n > 0 {
      SpacesSnoc(n - 1);
    }
  }

  /** `strings.Trim(s, " ")`: strip leading and trailing space characters (only ' '). */
  function Trim(s: string): (r: string)
    ensures r == [] || (r[0] != ' ' && r[|r| - 1] != ' ')
    ensures exists lead: nat, trail: nat :: s == Spaces(lead) + r + Spaces(trail)
  {
    var l := TrimLeft(s);
    var r := TrimRight(l);
    assert s == Spaces(|s| - |l|) + r + Spaces(|l| - |r|);
    r
  }

  /** Padding a one-word definition with spaces on either side does not change what is stored. */
  lemma {:induction false} TrimPadded(lead: nat, w: string, trail: nat)
    requires ValidName(w)
    ensures Trim(Spaces(lead) + w + Spaces(trail)) == w
  {
    TrimLeftPadded(lead, w + Spaces(trail));
    TrimRightPadded(w, trail);
    assert Spaces(lead) + w + Spaces(trail) == Spaces(lead) + (w + Spaces(trail));
  }

  lemma {:induction false} TrimLeftPadded(lead: nat, s: string)
    requires |s| > 0 && s[0] != ' '
    ensures TrimLeft(Spaces(lead) + s) == s
  {
    if lead > 0 {
      var t := Spaces(lead) + s;
      assert t[0] == ' ';
      assert t[1..] == Spaces(lead - 1) + s;
      TrimLeftPadded(lead - 1, s);
    }
  }

  lemma {:induction false} TrimRightPadded(w: string, trail: nat)
    requires ValidName(w)
    ensures TrimRight(w + Spaces(trail)) == w
  {
    if trail > 0 {
      var u := w + Spaces(trail - 1);
      var t := u + " ";
      assert w + Spaces(trail) == t by {
        SpacesSnoc(trail - 1);
      }
      assert t[|t| - 1] == ' ' && t[..|t| - 1] == u;
      assert TrimRight(t) == TrimRight(u);
      TrimRightPadded(w, trail - 1);
    } else {
      assert w + Spaces(0) == w;
      assert w[|w| - 1] != ' ' by {
        assert w[|w| - 1] in w;
      }
    }
  }

  /**
    `buildFlag`: trims both definitions, refuses an empty or multi-word one
    (checks in the source's order: empty long, empty short, long with spaces,
    short with spaces), and otherwise returns a non-mandatory flag.
   */
  function BuildFlag(long: string, short: string, description: string, callback: Callback, kind: FlagType)
    : (r: Result<Flag, ConstructionError>)
    ensures r.Ok? <==> ValidName(Trim(long)) && ValidName(Trim(short))
    ensures r.Ok? ==> r.value == Flag(Trim(long), Trim(short), description, kind, callback, false)
    ensures r == Err(EmptyLong) <==> Trim(long) == ""
    ensures r == Err(EmptyShort) <==> Trim(long) != "" && Trim(short) == ""
    ensures r == Err(LongHasSpaces(Trim(long))) <==> Trim(long) != "" && Trim(short) != "" && !CheckDefinition(Trim(long))
    ensures r.Err? && r.error.LongHasSpaces? ==> r.error.definition == Trim(long) && !CheckDefinition(Trim(long))
    ensures RefusedShortWords(r) <==> ValidName(Trim(long)) && Trim(short) != "" && !CheckDefinition(Trim(short))
    ensures RefusedShortWords(r) ==> r.error.definition == Trim(short) && !CheckDefinition(Trim(short))
  {
    var l := Trim(long);
    var s := Trim(short);
    if |l| == 0 then Err(EmptyLong)
    else if |s| == 0 then Err(EmptyShort)
    else if !CheckDefinition(l) then Err(LongHasSpaces(l))
    else if !CheckDefinition(s) then Err(ShortHasSpaces(s))
    else Ok(Flag(l, s, description, kind, callback, false))
  }

  /** The refusal `buildFlag` raises for a short definition of several words. */
  predicate RefusedShortWords(r: Result<Flag, ConstructionError>) {
    r.Err? && r.error.ShortHasSpaces?
  }

  /**
    `buildFlag` as written: it accepts and refuses exactly what `BuildFlag`
    does, but its message for a multi-word short definition names the LONG
    definition instead of the offending short one.
   */
  function BuildFlagAsWritten(long: string, short: string, description: string, callback: Callback, kind: FlagType)
    : (r: Result<Flag, ConstructionError>)
    ensures r.Ok? <==> BuildFlag(long, short, description, callback, kind).Ok?
    ensures r.Ok? ==> r == BuildFlag(long, short, description, callback, kind)
    ensures RefusedShortWords(r) <==> RefusedShortWords(BuildFlag(long, short, description, callback, kind))
    ensures !RefusedShortWords(r) ==> r == BuildFlag(long, short, description, callback, kind)
    ensures RefusedShortWords(r) ==> r.error.definition == Trim(long)
  {
    var r := BuildFlag(long, short, description, callback, kind);
    if RefusedShortWords(r) then Err(ShortHasSpaces(Trim(long))) else r
  }

  /**
    Whenever the short definition is refused for having several words, the
    as-written message names the long definition, which is never the
    offending one: the long definition passed its own check.
   */
  lemma ShortMessageAlwaysNamesLong(long: string, short: string, description: string, callback: Callback, kind: FlagType)
    requires RefusedShortWords(BuildFlag(long, short, description, callback, kind))
    ensures BuildFlagAsWritten(long, short, description, callback, kind) == Err(ShortHasSpaces(Trim(long)))
    ensures BuildFlag(long, short, description, callback, kind) == Err(ShortHasSpaces(Trim(short)))
    ensures Trim(long) != Trim(short)
  {
  }

  /**
    With the valid long name "a" and the short name "b c", the as-written
    message blames "a", while the corrected one blames "b c".
   */
  lemma ShortMessageNamesLong()
    ensures BuildFlagAsWritten("a", "b c", "", NilCallback, Switch) == Err(ShortHasSpaces("a"))
    ensures BuildFlag("a", "b c", "", NilCallback, Switch) == Err(ShortHasSpaces("b c"))
  {
    TrimPadded(0, "a", 0);
    assert Spaces(0) + "a" + Spaces(0) == "a";
    assert "b c"[1] == ' ';
    assert TrimLeft("b c") == "b c";
    assert TrimRight("b c") == "b c";
  }

  /** `Must`: set or clear the flag's mandatory mark, keeping everything else. */
  function Must(f: Flag, isIt: bool): (r: Flag)
    ensures r.mandatory == isIt
    ensures r.(mandatory := f.mandatory) == f
  {
    f.(mandatory := isIt)
  }
}

=== FILE: parser.dfy ===
/**
  The parser as a data structure: the root command (named after the
  program), the registered sub-commands, and the distinguished help node
  (`NewParser`, `SetHelp`, `AddCommand`, and the flag operations applied to
  one of its nodes).
 */
module Parsers {
  import opened Wrappers
  import opened Flags
  import opened Commands

  datatype Parser = Parser(root: Command, commands: map<string, Command>, help: Command)

  /** The name `NewParser` gives the help node. */
  const DefaultHelpName: string := "help"

  /**
    Registry consistency of every node, every sub-command stored under its
    own name, and every node except the root hanging off the root.
   */
  predicate WellFormed(p: Parser) {
    && Consistent(p.root)
    && Consistent(p.help)
    && p.root.parent == NoParent
    && p.help.parent == RootParent
    && forall k :: k in p.commands ==>
         Consistent(p.commands[k]) && p.commands[k].name == k && p.commands[k].parent == RootParent
  }

  /** `SetHelp`: replace the help node by a fresh one with empty flag maps. */
  function SetHelp(p: Parser, name: string, description: string, callback: Callback): (r: Parser)
    ensures r.root == p.root && r.commands == p.commands
    ensures r.help.name == name && r.help.callback == callback && r.help.parent == RootParent
    ensures r.help.long == map[] && r.help.short == map[]
    ensures WellFormed(p) ==> WellFormed(r)
  {
    p.(help := NewCommand(RootParent, name, description, callback))
  }

  /**
    `NewParser`: a root without flags or parent, no sub-commands, and the
    default help node named "help".
   */
  function NewParser(program: string): (p: Parser)
    ensures WellFormed(p)
    ensures p.root.name == program && p.root.long == map[] && p.root.short == map[]
    ensures p.commands == map[]
    ensures p.help.name == DefaultHelpName && p.help.callback == DefaultHelp
    ensures p.help.long == map[] && p.help.short == map[]
  {
    var empty := Parser(NewCommand(NoParent, program, "", NilCallback), map[], NewCommand(NoParent, "", "", NilCallback));
    SetHelp(empty, DefaultHelpName,
            "Type " + program + " help [command] for detailed information about a command", DefaultHelp)
  }

  /**
    `AddCommand`: refuses a name already registered; otherwise exactly that
    name is added, bound to a node with empty flag maps whose parent is the
    root. The help name is not consulted.
   */
  function AddCommand(p: Parser, name: string, description: string, callback: Callback): (r: Result<Parser, ConstructionError>)
    ensures r.Ok? <==> name !in p.commands
    ensures r.Err? ==> r.error == DuplicateCommand(name)
    ensures r.Ok? ==>
              && r.value.root == p.root && r.value.help == p.help
              && r.value.commands.Keys == p.commands.Keys + {name}
              && (forall k :: k in p.commands ==> r.value.commands[k] == p.commands[k])
              && r.value.commands[name].long == map[] && r.value.commands[name].short == map[]
              && r.value.commands[name].parent == RootParent
              && r.value.commands[name].callback == callback
    ensures r.Ok? && WellFormed(p) ==> WellFormed(r.value)
  {
    if name in p.commands then Err(DuplicateCommand(name))
    else Ok(p.(commands := p.commands[name := NewCommand(RootParent, name, description, callback)]))
  }

  /**
    Which node a construction call acts on: in the source these are the
    parser itself, the pointer `AddCommand` returned, or the one `SetHelp`
    returned (which shares its flag maps with the help node).
   */
  datatype Node = RootNode | CommandNode(name: string) | HelpNode

  function NodeOf(p: Parser, n: Node): Option<Command> {
    match n
    case RootNode => Some(p.root)
    case CommandNode(name) => if name in p.commands then Some(p.commands[name]) else None
    case HelpNode => Some(p.help)
  }

  function WithNode(p: Parser, n: Node, c: Command): (r: Parser)
    requires NodeOf(p, n).Some?
    ensures NodeOf(r, n) == Some(c)
    ensures r.commands.Keys == p.commands.Keys
    ensures n != RootNode ==> r.root == p.root
    ensures n != HelpNode ==> r.help == p.help
    ensures forall k :: k in p.commands && n != CommandNode(k) ==> r.commands[k] == p.commands[k]
  {
    match n
    case RootNode => p.(root := c)
    case CommandNode(name) => p.(commands := p.commands[name := c])
    case HelpNode => p.(help := c)
  }

  /** Replacing a node by a consistent one with the same name and parent keeps the parser consistent. */
  lemma WithNodeKeepsWellFormed(p: Parser, n: Node, c: Command)
    requires WellFormed(p) && NodeOf(p, n).Some?
    requires Consistent(c)
    requires c.name == NodeOf(p, n).value.name && c.parent == NodeOf(p, n).value.parent
    ensures WellFormed(WithNode(p, n, c))
  {
  }

  /**
    `AddOption` / `AddSwitch` on one node of the parser: only that node's
    registry changes, and it changes as `AddKind` says.
   */
  function AddFlagIn(p: Parser, n: Node, long: string, short: string, description: string, callback: Callback, kind: FlagType)
    : (r: Result<Parser, ConstructionError>)
    requires NodeOf(p, n).Some?
    ensures r.Ok? <==> AddKind(NodeOf(p, n).value, long, short, description, callback, kind).Ok?
    ensures r.Ok? ==> NodeOf(r.value, n) == Some(AddKind(NodeOf(p, n).value, long, short, description, callback, kind).value.0)
    ensures r.Ok? ==> r.value.commands.Keys == p.commands.Keys
    ensures r.Ok? && n != RootNode ==> r.value.root == p.root
    ensures r.Ok? && n != HelpNode ==> r.value.help == p.help
    ensures r.Ok? ==> forall k :: k in p.commands && n != CommandNode(k) ==> r.value.commands[k] == p.commands[k]
    ensures r.Ok? && WellFormed(p) ==> WellFormed(r.value)
  {
    var c := NodeOf(p, n).value;
    match AddKind(c, long, short, description, callback, kind)
    case Err(e) => Err(e)
    case Ok((d, _)) =>
      assert WellFormed(p) ==> WellFormed(WithNode(p, n, d)) by {
        if WellFormed(p) {
          WithNodeKeepsWellFormed(p, n, d);
        }
      }
      Ok(WithNode(p, n, d))
  }

  /** `Must` on a flag registered in one node of the parser. */
  function MustIn(p: Parser, n: Node, long: string, isIt: bool): (r: Parser)
    requires NodeOf(p, n).Some? && long in NodeOf(p, n).value.long
    ensures NodeOf(r, n) == Some(MustFlag(NodeOf(p, n).value, long, isIt))
    ensures long in NodeOf(r, n).value.long && NodeOf(r, n).value.long[long].mandatory == isIt
    ensures r.commands.Keys == p.commands.Keys
    ensures n != RootNode ==> r.root == p.root
    ensures n != HelpNode ==> r.help == p.help
    ensures forall k :: k in p.commands && n != CommandNode(k) ==> r.commands[k] == p.commands[k]
    ensures WellFormed(p) ==> WellFormed(r)
  {
    var c := NodeOf(p, n).value;
    var d := MustFlag(c, long, isIt);
    assert WellFormed(p) ==> WellFormed(WithNode(p, n, d)) by {
      if WellFormed(p) {
        MustFlagKeepsConsistent(c, long, isIt);
        WithNodeKeepsWellFormed(p, n, d);
      }
    }
    WithNode(p, n, d)
  }

  /** What the default help callback shows. */
  datatype HelpPage = CommandUsage(name: string) | NotFoundThenUsage(name: string) | ParserUsage

  /**
    `defaultHelp`: given the leftovers, show the usage of the command named
    first, or report that name as unknown and fall back to the whole
    parser's usage; with no leftovers, show the whole parser's usage.
   */
  function DefaultHelpPage(p: Parser, leftovers: seq<string>): (page: HelpPage)
    ensures page.CommandUsage? <==> |leftovers| > 0 && leftovers[0] in p.commands
    ensures page == ParserUsage <==> leftovers == []
    ensures page != ParserUsage ==> page.name == leftovers[0]
  {
    if |leftovers| > 0 then
      if leftovers[0] in p.commands then CommandUsage(leftovers[0]) else NotFoundThenUsage(leftovers[0])
    else ParserUsage
  }
}

=== FILE: scan_properties.dfy ===
/**
  Properties of the scan that hold for every parser and every argument
  list: where leftovers come from, when the mandatory check can fail,
  which failures no later input can undo, and which registries the scan
  consults.
 */
module ScanProperties {
  import opened Wrappers
  import opened Flags
  import opened Commands
  import opened Parsers
  import opened Scanner

  /** `xs` can be obtained from `ys` by deleting elements. */
  predicate IsSubsequence(xs: seq<string>, ys: seq<string>)
    decreases |ys|
  {
    xs == [] || (ys != [] && ((xs[0] == ys[0] && IsSubsequence(xs[1..], ys[1..])) || IsSubsequence(xs, ys[1..])))
  }

  /** A leftover is a plain token other than the help name: that name always dispatches. */
  predicate LeftoverToken(p: Parser, t: string) {
    !IsFlagToken(t) && t != p.help.name
  }

  /**
    The scan only ever appends leftovers, and what it appends is a
    subsequence of the remaining tokens (so their relative order is kept),
    each a plain token other than the help name. This holds on failure
    too: the leftovers returned with an error are those collected so far.
   */
  lemma {:induction false} LeftoversInOrder(p: Parser, rest: seq<string>, st: ScanState)
    ensures var l := Scan(p, rest, st).leftovers;
            && st.leftovers <= l
            && IsSubsequence(l[|st.leftovers|..], rest)
            && forall k :: |st.leftovers| <= k < |l| ==> LeftoverToken(p, l[k])
    decreases |rest|
  {
    var r := Scan(p, rest, st);
    if rest == [] {
      assert r.leftovers == st.leftovers;
    } else {
      var arg := rest[0];
      if IsFlagToken(arg) {
        match LookupFlag(st.scope, arg)
        case None =>
        case Some(f) =>
          if f.kind == Option {
            if |rest| >= 2 {
              var st' := st.(visited := st.visited + [f.long],
                             calls := st.calls + [DeferFlag(f.callback, f.long, rest[1])]);
              LeftoversInOrder(p, rest[2..], st');
              SubsequenceOfTail(r.leftovers[|st.leftovers|..], rest[1..]);
              SubsequenceOfTail(r.leftovers[|st.leftovers|..], rest);
            }
          } else {
            var st' := st.(visited := st.visited + [f.long],
                           calls := st.calls + [DeferFlag(f.callback, f.long, "")]);
            LeftoversInOrder(p, rest[1..], st');
            SubsequenceOfTail(r.leftovers[|st.leftovers|..], rest);
          }
      } else {
        var missing := MissingMandatoryFlags(st.scope, st.visited);
        if missing != {} {
        } else if arg in p.commands && st.scope.name != p.help.name {
          LeftoversInOrder(p, rest[1..], st.(scope := p.commands[arg],
                                              calls := st.calls + [DeferCommand(p.commands[arg].callback, arg)]));
          SubsequenceOfTail(r.leftovers[|st.leftovers|..], rest);
        } else if arg == p.help.name {
          LeftoversInOrder(p, rest[1..], st.(scope := p.help,
                                              calls := st.calls + [DeferCommand(p.help.callback, arg)]));
          SubsequenceOfTail(r.leftovers[|st.leftovers|..], rest);
        } else {
          var st' := st.(leftovers := st.leftovers + [arg]);
          LeftoversInOrder(p, rest[1..], st');
          var gained := r.leftovers[|st.leftovers|..];
          assert gained[0] == arg;
          assert gained[1..] == r.leftovers[|st'.leftovers|..];
        }
      }
    }
  }

  lemma SubsequenceOfTail(xs: seq<string>, ys: seq<string>)
    requires ys != [] && IsSubsequence(xs, ys[1..])
    ensures IsSubsequence(xs, ys)
  {
  }

  /** For a whole parse: the leftovers, returned with or without an error, are plain tokens of `args` in their original order. */
  lemma ParseLeftoversInOrder(p: Parser, args: seq<string>)
    ensures IsSubsequence(Parse(p, args).leftovers, args)
    ensures forall t :: t in Parse(p, args).leftovers ==> LeftoverToken(p, t)
  {
    LeftoversInOrder(p, args, Initial(p));
    var l := Scan(p, args, Initial(p)).leftovers;
    assert l[0..] == l;
  }

  /** A token no scope can consume: not a flag, not a registered command, not the help name. */
  predicate AlwaysLeftover(p: Parser, t: string) {
    !IsFlagToken(t) && t !in p.commands && t != p.help.name
  }

  /**
    The tokens of `rest` that a successful scan must keep, whatever the
    scopes and flag kinds: those that are always leftovers and do not
    directly follow a flag token (so cannot be an option's value).
    `afterFlag` says whether the token before `rest` was a flag token.
   */
  function KeptTokens(p: Parser, rest: seq<string>, afterFlag: bool): seq<string>
    decreases |rest|
  {
    if rest == [] then []
    else
      (if !afterFlag && AlwaysLeftover(p, rest[0]) then [rest[0]] else [])
      + KeptTokens(p, rest[1..], IsFlagToken(rest[0]))
  }

  /**
    The converse of `LeftoversInOrder`: when the scan succeeds, every token
    that is always a leftover and cannot be an option value is among the
    leftovers it adds, in order.
   */
  lemma {:induction false} LeftoversComplete(p: Parser, rest: seq<string>, st: ScanState, afterFlag: bool)
    requires Scan(p, rest, st).Scanned?
    ensures st.leftovers <= Scan(p, rest, st).leftovers
    ensures IsSubsequence(KeptTokens(p, rest, afterFlag), Scan(p, rest, st).leftovers[|st.leftovers|..])
    decreases |rest|
  {
    assert st.leftovers <= Scan(p, rest, st).leftovers by {
      LeftoversInOrder(p, rest, st);
    }
    if rest != [] {
      var arg := rest[0];
      var more := rest[1..];
      assert rest == [arg] + more;
      var goal := IsSubsequence(KeptTokens(p, rest, afterFlag), Scan(p, rest, st).leftovers[|st.leftovers|..]);
      if IsFlagToken(arg) {
        var f := LookupFlag(st.scope, arg).value;
        if f.kind == Option {
          assert goal by {
            var st' := st.(visited := st.visited + [f.long],
                           calls := st.calls + [DeferFlag(f.callback, f.long, rest[1])]);
            assert Scan(p, rest, st) == Scan(p, rest[2..], st') by {
              assert rest == [arg, rest[1]] + rest[2..];
              StepOption(p, arg, rest[1], rest[2..], st);
            }
            assert KeptTokens(p, rest, afterFlag) == KeptTokens(p, rest[2..], IsFlagToken(rest[1])) by {
              assert KeptTokens(p, rest, afterFlag) == KeptTokens(p, more, true);
              assert more[1..] == rest[2..];
            }
            LeftoversComplete(p, rest[2..], st', IsFlagToken(rest[1]));
          }
        } else {
          assert goal by {
            var st' := st.(visited := st.visited + [f.long],
                           calls := st.calls + [DeferFlag(f.callback, f.long, "")]);
            assert Scan(p, rest, st) == Scan(p, more, st') by {
              StepSwitch(p, arg, more, st);
            }
            assert KeptTokens(p, rest, afterFlag) == KeptTokens(p, more, true);
            LeftoversComplete(p, more, st', true);
          }
        }
      } else if arg in p.commands && st.scope.name != p.help.name {
        assert goal by {
          var st' := st.(scope := p.commands[arg], calls := st.calls + [DeferCommand(p.commands[arg].callback, arg)]);
          assert Scan(p, rest, st) == Scan(p, more, st') by {
            PlainTokenDispatchesCommand(p, arg, more, st);
          }
          assert KeptTokens(p, rest, afterFlag) == KeptTokens(p, more, false);
          LeftoversComplete(p, more, st', false);
        }
      } else if arg == p.help.name {
        assert goal by {
          var st' := st.(scope := p.help, calls := st.calls + [DeferCommand(p.help.callback, arg)]);
          assert Scan(p, rest, st) == Scan(p, more, st') by {
            PlainTokenEntersHelp(p, arg, more, st);
          }
          assert KeptTokens(p, rest, afterFlag) == KeptTokens(p, more, false);
          LeftoversComplete(p, more, st', false);
        }
      } else {
        assert goal by {
          var st' := st.(leftovers := st.leftovers + [arg]);
          assert Scan(p, rest, st) == Scan(p, more, st') by {
            PlainTokenIsLeftover(p, arg, more, st);
          }
          LeftoversComplete(p, more, st', false);
          KeepOrSkip(p, arg, more, afterFlag, st.leftovers, Scan(p, more, st').leftovers);
        }
      }
    }
  }

  /** The leftover step of `LeftoversComplete`: the token is either kept or skipped by `KeptTokens`. */
  lemma KeepOrSkip(p: Parser, arg: string, more: seq<string>, afterFlag: bool, before: seq<string>, l: seq<string>)
    requires !IsFlagToken(arg)
    requires before + [arg] <= l
    requires IsSubsequence(KeptTokens(p, more, false), l[|before| + 1..])
    ensures IsSubsequence(KeptTokens(p, [arg] + more, afterFlag), l[|before|..])
  {
    var gained := l[|before|..];
    assert gained == [arg] + l[|before| + 1..];
    assert ([arg] + more)[1..] == more;
    if !afterFlag && AlwaysLeftover(p, arg) {
      var kept := KeptTokens(p, [arg] + more, afterFlag);
      assert kept == [arg] + KeptTokens(p, more, false);
      assert kept[0] == gained[0] && kept[1..] == KeptTokens(p, more, false) && gained[1..] == l[|before| + 1..];
    } else {
      assert KeptTokens(p, [arg] + more, afterFlag) == KeptTokens(p, more, false);
      SubsequenceOfTail(KeptTokens(p, more, false), gained);
    }
  }

  /** For a whole successful parse: the tokens that are always leftovers and follow no flag token are all returned, in order. */
  lemma ParseLeftoversComplete(p: Parser, args: seq<string>)
    requires Parse(p, args).Parsed?
    ensures IsSubsequence(KeptTokens(p, args, false), Parse(p, args).leftovers)
  {
    LeftoversComplete(p, args, Initial(p), false);
    var l := Scan(p, args, Initial(p)).leftovers;
    assert l[0..] == l;
  }

  /**
    The mandatory check runs only when a plain token is reached: a scan
    that fails for a missing mandatory flag had a plain token in front of
    it, and the reported set is never empty.
   */
  lemma {:induction false} MissingMandatoryNeedsPlainToken(p: Parser, rest: seq<string>, st: ScanState)
    requires Scan(p, rest, st).ScanFailed? && Scan(p, rest, st).error.MissingMandatory?
    ensures exists j :: 0 <= j < |rest| && !IsFlagToken(rest[j])
    ensures Scan(p, rest, st).error.missing != {}
    decreases |rest|
  {
    var arg := rest[0];
    if IsFlagToken(arg) {
      var f := LookupFlag(st.scope, arg).value;
      var skip := if f.kind == Option then 2 else 1;
      var st' := st.(visited := st.visited + [f.long],
                     calls := st.calls + [DeferFlag(f.callback, f.long, if f.kind == Option then rest[1] else "")]);
      MissingMandatoryNeedsPlainToken(p, rest[skip..], st');
      var j :| 0 <= j < |rest[skip..]| && !IsFlagToken(rest[skip..][j]);
      assert rest[skip + j] == rest[skip..][j];
    } else if MissingMandatoryFlags(st.scope, st.visited) == {} {
      var st' := PlainStep(p, arg, st);
      MissingMandatoryNeedsPlainToken(p, rest[1..], st');
    }
  }

  /** A parse whose tokens all start with '-' never reports a missing mandatory flag. */
  lemma FlagTokensNeverMissMandatory(p: Parser, args: seq<string>)
    requires forall k :: 0 <= k < |args| ==> IsFlagToken(args[k])
    ensures !(Parse(p, args).ParseFailed? && Parse(p, args).error.MissingMandatory?)
  {
    if Scan(p, args, Initial(p)).ScanFailed? && Scan(p, args, Initial(p)).error.MissingMandatory? {
      MissingMandatoryNeedsPlainToken(p, args, Initial(p));
    }
  }

  /**
    The scan fails fast: once it stops on an unknown flag or a missing
    mandatory flag, appending more tokens changes neither the error nor
    the leftovers. Only a trailing option without value can be completed.
   */
  lemma {:induction false} FailureSurvivesMoreInput(p: Parser, xs: seq<string>, ys: seq<string>, st: ScanState)
    requires Scan(p, xs, st).ScanFailed? && !Scan(p, xs, st).error.NoValue?
    ensures Scan(p, xs + ys, st) == Scan(p, xs, st)
    decreases |xs|
  {
    var arg := xs[0];
    assert (xs + ys)[0] == arg;
    assert (xs + ys)[1..] == xs[1..] + ys;
    if IsFlagToken(arg) {
      match LookupFlag(st.scope, arg)
      case None =>
      case Some(f) =>
        var st' := st.(visited := st.visited + [f.long],
                       calls := st.calls + [DeferFlag(f.callback, f.long, if f.kind == Option then xs[1] else "")]);
        if f.kind == Option {
          assert (xs + ys)[1] == xs[1];
          assert (xs + ys)[2..] == xs[2..] + ys;
          FailureSurvivesMoreInput(p, xs[2..], ys, st');
        } else {
          FailureSurvivesMoreInput(p, xs[1..], ys, st');
        }
    } else if MissingMandatoryFlags(st.scope, st.visited) == {} {
      var st' := PlainStep(p, arg, st);
      FailureSurvivesMoreInput(p, xs[1..], ys, st');
    }
  }

  /**
    Scope locality: the root node is the starting scope and nothing else;
    once the scan is under way, replacing the root's registry (or name)
    changes nothing, because no token leads back to the root.
   */
  lemma {:induction false} RootOnlyStartsTheScan(p: Parser, root: Command, rest: seq<string>, st: ScanState)
    ensures Scan(p.(root := root), rest, st) == Scan(p, rest, st)
    decreases |rest|
  {
    var q := p.(root := root);
    if rest != [] {
      var arg := rest[0];
      if IsFlagToken(arg) {
        match LookupFlag(st.scope, arg)
        case None =>
        case Some(f) =>
          if f.kind == Option {
            if |rest| >= 2 {
              RootOnlyStartsTheScan(p, root, rest[2..], st.(visited := st.visited + [f.long],
                                                            calls := st.calls + [DeferFlag(f.callback, f.long, rest[1])]));
            }
          } else {
            RootOnlyStartsTheScan(p, root, rest[1..], st.(visited := st.visited + [f.long],
                                                          calls := st.calls + [DeferFlag(f.callback, f.long, "")]));
          }
      } else if MissingMandatoryFlags(st.scope, st.visited) == {} {
        var st' := PlainStep(p, arg, st);
        RootOnlyStartsTheScan(p, root, rest[1..], st');
      }
    }
  }

  /**
    A flag token that misses the current scope's map stops the scan with
    the token and the scope's name, whatever other nodes register; `Parse`
    then runs nothing. In a consistent scope "-" and "--" always miss,
    because the empty name is never registered.
   */
  lemma UnknownFlagAborts(p: Parser, t: string, tail: seq<string>, st: ScanState)
    requires IsFlagToken(t) && LookupFlag(st.scope, t).None?
    ensures Scan(p, [t] + tail, st) == ScanFailed(UnknownFlag(t, st.scope.name), st.leftovers)
  {
    assert ([t] + tail)[0] == t;
  }

  lemma BareDashesMiss(c: Command)
    requires Consistent(c)
    ensures LookupFlag(c, "-").None? && LookupFlag(c, "--").None?
  {
    assert "--"[2..] == "";
    assert "-"[1..] == "";
  }

  /**
    In a consistent scope, "--" followed by a long name finds that flag,
    and "-" followed by its short name finds it too, unless the short name
    itself starts with '-' (such a token is read as a long-form token).
   */
  lemma TokensFindTheirFlag(c: Command, k: string)
    requires Consistent(c) && k in c.long
    ensures LookupFlag(c, "--" + k) == Some(c.long[k])
    ensures !IsFlagToken(c.long[k].short) ==> LookupFlag(c, "-" + c.long[k].short) == Some(c.long[k])
  {
    assert ("--" + k)[2..] == k;
    var s := c.long[k].short;
    assert ("-" + s)[1..] == s;
  }

  /** The short form of a flag whose short name starts with '-' resolves through the long map. */
  lemma DashedShortNameIsReadAsLong(c: Command, k: string)
    requires Consistent(c) && k in c.long && IsFlagToken(c.long[k].short)
    ensures LookupFlag(c, "-" + c.long[k].short) == Some(c.long[k]) ==> c.long[k].short[1..] == k
  {
    var s := c.long[k].short;
    assert ("-" + s)[2..] == s[1..];
  }

  /**
    The per-token rules. A switch queues a call with the value "" under
    the flag's long name and consumes only its own token.
   */
  lemma StepSwitch(p: Parser, t: string, tail: seq<string>, st: ScanState)
    requires IsFlagToken(t) && LookupFlag(st.scope, t).Some? && LookupFlag(st.scope, t).value.kind == Switch
    ensures var f := LookupFlag(st.scope, t).value;
            Scan(p, [t] + tail, st)
            == Scan(p, tail, st.(visited := st.visited + [f.long], calls := st.calls + [DeferFlag(f.callback, f.long, "")]))
  {
    assert ([t] + tail)[0] == t && ([t] + tail)[1..] == tail;
  }

  /** An option queues a call under the flag's long name with the next token as value, whatever that token is. */
  lemma StepOption(p: Parser, t: string, v: string, tail: seq<string>, st: ScanState)
    requires IsFlagToken(t) && LookupFlag(st.scope, t).Some? && LookupFlag(st.scope, t).value.kind == Option
    ensures var f := LookupFlag(st.scope, t).value;
            Scan(p, [t, v] + tail, st)
            == Scan(p, tail, st.(visited := st.visited + [f.long], calls := st.calls + [DeferFlag(f.callback, f.long, v)]))
  {
    assert ([t, v] + tail)[0] == t && ([t, v] + tail)[1] == v && ([t, v] + tail)[2..] == tail;
  }

  /** An option that is the last token is an error. */
  lemma OptionWithoutValue(p: Parser, t: string, st: ScanState)
    requires IsFlagToken(t) && LookupFlag(st.scope, t).Some? && LookupFlag(st.scope, t).value.kind == Option
    ensures Scan(p, [t], st) == ScanFailed(NoValue(t), st.leftovers)
  {
  }

  /** A plain token first runs the mandatory check of the current scope against every long name visited so far. */
  lemma PlainTokenChecksMandatory(p: Parser, t: string, tail: seq<string>, st: ScanState)
    requires !IsFlagToken(t) && MissingMandatoryFlags(st.scope, st.visited) != {}
    ensures Scan(p, [t] + tail, st)
         == ScanFailed(MissingMandatory(MissingMandatoryFlags(st.scope, st.visited), st.scope.name), st.leftovers)
  {
    assert ([t] + tail)[0] == t;
  }

  /** After the check, a registered command switches scope unless the current scope carries the help name. */
  lemma PlainTokenDispatchesCommand(p: Parser, t: string, tail: seq<string>, st: ScanState)
    requires !IsFlagToken(t) && MissingMandatoryFlags(st.scope, st.visited) == {}
    requires t in p.commands && st.scope.name != p.help.name
    ensures Scan(p, [t] + tail, st)
         == Scan(p, tail, st.(scope := p.commands[t], calls := st.calls + [DeferCommand(p.commands[t].callback, t)]))
  {
    assert ([t] + tail)[0] == t && ([t] + tail)[1..] == tail;
  }

  /** Otherwise the help name switches to the help node, from any scope. */
  lemma PlainTokenEntersHelp(p: Parser, t: string, tail: seq<string>, st: ScanState)
    requires !IsFlagToken(t) && MissingMandatoryFlags(st.scope, st.visited) == {}
    requires !(t in p.commands && st.scope.name != p.help.name) && t == p.help.name
    ensures Scan(p, [t] + tail, st)
         == Scan(p, tail, st.(scope := p.help, calls := st.calls + [DeferCommand(p.help.callback, t)]))
  {
    assert ([t] + tail)[0] == t && ([t] + tail)[1..] == tail;
  }

  /** Any other plain token becomes a leftover. */
  lemma PlainTokenIsLeftover(p: Parser, t: string, tail: seq<string>, st: ScanState)
    requires !IsFlagToken(t) && MissingMandatoryFlags(st.scope, st.visited) == {}
    requires !(t in p.commands && st.scope.name != p.help.name) && t != p.help.name
    ensures Scan(p, [t] + tail, st) == Scan(p, tail, st.(leftovers := st.leftovers + [t]))
  {
    assert ([t] + tail)[0] == t && ([t] + tail)[1..] == tail;
  }

  /**
    In the help scope registered command names no longer dispatch: they
    become leftovers, which the default help uses to pick the usage page.
   */
  lemma HelpTreatsCommandNamesAsLeftovers(p: Parser, c: string)
    requires !IsFlagToken(p.help.name) && p.help.name !in p.commands
    requires c in p.commands && !IsFlagToken(c)
    requires MissingMandatoryFlags(p.root, []) == {} && MissingMandatoryFlags(p.help, []) == {}
    ensures Parse(p, [p.help.name, c]) == Parsed([CommandInvoked(p.help.callback, p.help.name, [c])], [c])
    ensures DefaultHelpPage(p, Parse(p, [p.help.name, c]).leftovers) == CommandUsage(c)
  {
    var h := p.help.name;
    var st0 := Initial(p);
    var st1 := st0.(scope := p.help, calls := [DeferCommand(p.help.callback, h)]);
    assert Scan(p, [c], st1) == Scanned(st1.calls, [c]) by {
      PlainTokenIsLeftover(p, c, [], st1);
      assert [c] == [c] + [];
    }
    assert Scan(p, [h, c], st0) == Scan(p, [c], st1) by {
      PlainTokenEntersHelp(p, h, [c], st0);
      assert [h, c] == [h] + [c];
    }
    assert RunAll(st1.calls, [c]) == [CommandInvoked(p.help.callback, h, [c])];
  }
}

=== FILE: scanner.dfy ===
/**
  The parsing engine: the left-to-right scan `parse` with its single
  mutable current scope, the mandatory check `checkVisited`, and `Parse`,
  which runs the deferred calls only when the whole scan succeeded.
 */
module Scanner {
  import opened Wrappers
  import opened Flags
  import opened Commands
  import opened Parsers

  /** A call queued during the scan (`flagCaller` / `commandCaller`), run only by `Parse`. */
  datatype Deferred =
    | DeferFlag(callback: Callback, name: string, value: string)
    | DeferCommand(callback: Callback, name: string)

  /** A call as `Parse` performs it; a command call receives the final leftovers. */
  datatype Invocation =
    | FlagInvoked(callback: Callback, name: string, value: string)
    | CommandInvoked(callback: Callback, name: string, args: seq<string>)

  /**
    Runtime errors. For a missing mandatory flag the source reports one
    element of `missing`, chosen by map iteration order; the model keeps
    the whole set.
   */
  datatype ParseError =
    | UnknownFlag(token: string, scope: string)
    | NoValue(token: string)
    | MissingMandatory(missing: set<string>, scope: string)

  /**
    The loop state of `parse`: the current scope, the long names of all
    flags seen so far (in every scope), the queued calls and the leftovers.
   */
  datatype ScanState = ScanState(scope: Command, visited: seq<string>, calls: seq<Deferred>, leftovers: seq<string>)

  /** The result of `parse`: the queued calls, or the error; leftovers in both cases. */
  datatype ScanResult =
    | Scanned(calls: seq<Deferred>, leftovers: seq<string>)
    | ScanFailed(error: ParseError, leftovers: seq<string>)

  /** The result of `Parse`. On failure nothing has been run. */
  datatype ParseResult =
    | Parsed(invocations: seq<Invocation>, leftovers: seq<string>)
    | ParseFailed(error: ParseError, leftovers: seq<string>)

  /** A token starting with '-' is a flag token, whatever follows. */
  predicate IsFlagToken(t: string) {
    |t| > 0 && t[0] == '-'
  }

  function Initial(p: Parser): ScanState {
    ScanState(p.root, [], [], [])
  }

  /** Resolve a flag token in one scope: "--x" looks up "x" in the long map, "-x" looks up "x" in the short map. */
  function LookupFlag(c: Command, t: string): (r: Option<Flag>)
    requires IsFlagToken(t)
    ensures |t| >= 2 && t[1] == '-' ==> (r.Some? <==> t[2..] in c.long)
    ensures !(|t| >= 2 && t[1] == '-') ==> (r.Some? <==> t[1..] in c.short)
    ensures |t| >= 2 && t[1] == '-' && r.Some? ==> r.value == c.long[t[2..]]
    ensures !(|t| >= 2 && t[1] == '-') && r.Some? ==> r.value == c.short[t[1..]]
  {
    if |t| >= 2 && t[1] == '-' then
      if t[2..] in c.long then Some(c.long[t[2..]]) else None
    else
      if t[1..] in c.short then Some(c.short[t[1..]]) else None
  }

  /**
    `checkVisited` over `Flags()`: the long names of the scope's mandatory
    flags that no visited flag matches by long name.
   */
  function MissingMandatoryFlags(c: Command, visited: seq<string>): (r: set<string>)
    ensures forall n :: n in r ==> n !in visited
    ensures Consistent(c) ==> forall n :: n in r <==> n in c.long && c.long[n].mandatory && n !in visited
  {
    set f | f in AllFlags(c) && f.mandatory && f.long !in visited :: f.long
  }

  /**
    The loop of `parse`, one token per step, over the tokens not yet
    consumed. A flag token is resolved in the current scope only; an
    option takes the next token as its value whatever it is. A plain token
    first runs the mandatory check against the current scope, then switches
    to a registered command (unless the current scope carries the help
    name), or to the help node when it equals the help name, or else
    becomes a leftover. Nothing is checked when the tokens run out.
   */
  function Scan(p: Parser, rest: seq<string>, st: ScanState): ScanResult
    decreases |rest|
  {
    if rest == [] then Scanned(st.calls, st.leftovers)
    else
      var arg := rest[0];
      if IsFlagToken(arg) then
        match LookupFlag(st.scope, arg)
        case None => ScanFailed(UnknownFlag(arg, st.scope.name), st.leftovers)
        case Some(f) =>
          if f.kind == Option then
            if |rest| < 2 then ScanFailed(NoValue(arg), st.leftovers)
            else Scan(p, rest[2..], st.(visited := st.visited + [f.long],
                                        calls := st.calls + [DeferFlag(f.callback, f.long, rest[1])]))
          else
            Scan(p, rest[1..], st.(visited := st.visited + [f.long],
                                   calls := st.calls + [DeferFlag(f.callback, f.long, "")]))
      else
        var missing := MissingMandatoryFlags(st.scope, st.visited);
        if missing != {} then ScanFailed(MissingMandatory(missing, st.scope.name), st.leftovers)
        else Scan(p, rest[1..], PlainStep(p, arg, st))
  }

  /**
    The state after a plain token that passed the mandatory check: switch
    to a registered command (unless the current scope carries the help
    name), or to the help node when the token is the help name, queueing
    that node's callback; or else keep the token as a leftover.
   */
  function PlainStep(p: Parser, arg: string, st: ScanState): ScanState {
    if arg in p.commands && st.scope.name != p.help.name then
      st.(scope := p.commands[arg], calls := st.calls + [DeferCommand(p.commands[arg].callback, arg)])
    else if arg == p.help.name then
      st.(scope := p.help, calls := st.calls + [DeferCommand(p.help.callback, arg)])
    else st.(leftovers := st.leftovers + [arg])
  }

  /** Run one queued call; a command call reads the leftovers as they are at the end of the scan. */
  function Execute(d: Deferred, leftovers: seq<string>): Invocation {
    match d
    case DeferFlag(cb, name, value) => FlagInvoked(cb, name, value)
    case DeferCommand(cb, name) => CommandInvoked(cb, name, leftovers)
  }

  function RunAll(calls: seq<Deferred>, leftovers: seq<string>): (r: seq<Invocation>)
    ensures |r| == |calls|
  {
    seq(|calls|, k requires 0 <= k < |calls| => Execute(calls[k], leftovers))
  }

  /**
    `Parse`: scan the whole argument list from the root scope; on success
    run every queued call in the order it was queued, each command call
    receiving the complete final leftovers; on failure run nothing.
   */
  function Parse(p: Parser, args: seq<string>): (r: ParseResult)
    ensures r.Parsed? ==> forall k :: 0 <= k < |r.invocations| && r.invocations[k].CommandInvoked? ==>
                                        r.invocations[k].args == r.leftovers
  {
    match Scan(p, args, Initial(p))
    case ScanFailed(e, l) => ParseFailed(e, l)
    case Scanned(calls, l) => Parsed(RunAll(calls, l), l)
  }

  /** `parse` as written: an index loop with the current command held in a variable. */
  method ScanLoop(p: Parser, args: seq<string>) returns (r: ScanResult)
    ensures r == Scan(p, args, Initial(p))
  {
    var visited: seq<string> := [];
    var functions: seq<Deferred> := [];
    var leftOvers: seq<string> := [];
    var current := p.root;
    var i := 0;
    while i < |args|
      invariant 0 <= i <= |args|
      invariant Scan(p, args[i..], ScanState(current, visited, functions, leftOvers)) == Scan(p, args, Initial(p))
    {
      var arg := args[i];
      assert args[i..][0] == arg;
      assert args[i..][1..] == args[i + 1..];
      if IsFlagToken(arg) {
        var opt := LookupFlag(current, arg);
        if opt.None? {
          return ScanFailed(UnknownFlag(arg, current.name), leftOvers);
        }
        var f := opt.value;
        if f.kind == Option {
          if i + 1 >= |args| {
            return ScanFailed(NoValue(arg), leftOvers);
          }
          assert args[i..][1] == args[i + 1];
          assert args[i..][2..] == args[i + 2..];
          functions := functions + [DeferFlag(f.callback, f.long, args[i + 1])];
          i := i + 1;
        } else {
          functions := functions + [DeferFlag(f.callback, f.long, "")];
        }
        visited := visited + [f.long];
      } else {
        var missing := MissingMandatoryFlags(current, visited);
        if missing != {} {
          return ScanFailed(MissingMandatory(missing, current.name), leftOvers);
        }
        if arg in p.commands && current.name != p.help.name {
          functions := functions + [DeferCommand(p.commands[arg].callback, arg)];
          current := p.commands[arg];
        } else if arg == p.help.name {
          functions := functions + [DeferCommand(p.help.callback, arg)];
          current := p.help;
        } else {
          leftOvers := leftOvers + [arg];
        }
      }
      i := i + 1;
    }
    return Scanned(functions, leftOvers);
  }

  /** `Parse` as written: scan, then call every queued function in order. */
  method ParseLoop(p: Parser, args: seq<string>) returns (r: ParseResult)
    ensures r == Parse(p, args)
  {
    var scanned := ScanLoop(p, args);
    if scanned.ScanFailed? {
      return ParseFailed(scanned.error, scanned.leftovers);
    }
    var done: seq<Invocation> := [];
    var k := 0;
    while k < |scanned.calls|
      invariant 0 <= k <= |scanned.calls|
      invariant done == RunAll(scanned.calls[..k], scanned.leftovers)
    {
      done := done + [Execute(scanned.calls[k], scanned.leftovers)];
      k := k + 1;
    }
    assert scanned.calls[..k] == scanned.calls;
    return Parsed(done, scanned.leftovers);
  }
}

=== FILE: scenarios.dfy ===
/**
  Concrete parsers, built through the construction functions, and
  argument lists showing the engine's behaviour as the code has it: no
  mandatory check at the end of the input (although the comment on
  `Parse` promises an error when a mandatory flag was not supplied),
  command callbacks queued before their own flags, visited flags shared
  across scopes, help re-entered on every help-name token, and a command
  registered under the help name taking precedence over help.
 */
module Scenarios {
  import opened Wrappers
  import opened Flags
  import opened Commands
  import opened Parsers
  import opened Scanner
  import opened ScanProperties

  const Verbose := Flag("verbose", "v", "", Switch, UserCallback(1), false)
  const Target := Flag("target", "t", "", Option, UserCallback(4), true)
  const RootTarget := Flag("target", "T", "", Option, UserCallback(5), false)
  const Build := Command("build", "", map[], map[], UserCallback(2), RootParent)
  const Deploy := Command("deploy", "", map["target" := Target], map["t" := Target], UserCallback(3), RootParent)
  const Help := Command("help", "Type " + "app" + " help [command] for detailed information about a command",
                        map[], map[], DefaultHelp, RootParent)
  const BareRoot := Command("app", "", map[], map[], NilCallback, NoParent)
  const BareDeploy := Command("deploy", "", map[], map[], UserCallback(3), RootParent)
  const LooseTarget := Flag("target", "t", "", Option, UserCallback(4), false)
  const LooseDeploy := Command("deploy", "", map["target" := LooseTarget], map["t" := LooseTarget], UserCallback(3), RootParent)
  const AppRoot := Command("app", "", map["verbose" := Verbose], map["v" := Verbose], NilCallback, NoParent)
  const TargetRoot := Command("app", "", map["verbose" := Verbose, "target" := RootTarget],
                              map["v" := Verbose, "T" := RootTarget], NilCallback, NoParent)

  /** Program "app" with a global switch --verbose/-v, a command "build", and a command "deploy" with a mandatory option --target/-t. */
  const App := Parser(AppRoot, map["build" := Build, "deploy" := Deploy], Help)

  /** A parser with one command registered under the help node's name. */
  const HelpCommand := Command("help", "", map[], map[], UserCallback(9), RootParent)
  const Shadowed := Parser(BareRoot, map["help" := HelpCommand], Help)

  /** The same, with an optional global --target/-T as well. */
  const AppWithGlobalTarget := Parser(TargetRoot, map["build" := Build, "deploy" := Deploy], Help)

  /** Program "test" with a mandatory global option --option/-o and no commands. */
  const LooseOption := Flag("option", "o", "", Option, UserCallback(6), false)
  const GlobalOption := Flag("option", "o", "", Option, UserCallback(6), true)
  const TestHelp := Command("help", "Type " + "test" + " help [command] for detailed information about a command",
                            map[], map[], DefaultHelp, RootParent)
  const LooseTestRoot := Command("test", "", map["option" := LooseOption], map["o" := LooseOption], NilCallback, NoParent)
  const TestRoot := Command("test", "", map["option" := GlobalOption], map["o" := GlobalOption], NilCallback, NoParent)
  const MandatoryTest := Parser(TestRoot, map[], TestHelp)

  /** A one-word name trims to itself. */
  lemma TrimsToItself(w: string)
    requires ValidName(w)
    ensures Trim(w) == w
  {
    TrimPadded(0, w, 0);
    assert Spaces(0) + w + Spaces(0) == w;
  }

  /**
    The example parsers built as a program would build them:
    `NewParser("app")`, a global switch --verbose/-v, when `globalTarget`
    an optional global --target/-T, the commands "build" and "deploy", and
    on deploy an option --target/-t that is then made mandatory.
   */
  function BuildApp(globalTarget: bool): Result<Parser, ConstructionError> {
    match RootStage(globalTarget)
    case Err(e) => Err(e)
    case Ok(p2) =>
      match CommandStage(p2)
      case Err(e) => Err(e)
      case Ok(p4) => DeployTargetStage(p4)
  }

  function RootStage(globalTarget: bool): Result<Parser, ConstructionError> {
    match AddFlagIn(NewParser("app"), RootNode, "verbose", "v", "", UserCallback(1), Switch)
    case Err(e) => Err(e)
    case Ok(p1) =>
      if globalTarget then AddFlagIn(p1, RootNode, "target", "T", "", UserCallback(5), Option) else Ok(p1)
  }

  function CommandStage(p: Parser): (r: Result<Parser, ConstructionError>)
    ensures r.Ok? ==> "deploy" in r.value.commands
  {
    match AddCommand(p, "build", "", UserCallback(2))
    case Err(e) => Err(e)
    case Ok(p3) => AddCommand(p3, "deploy", "", UserCallback(3))
  }

  function DeployTargetStage(p: Parser): Result<Parser, ConstructionError>
    requires "deploy" in p.commands
  {
    match AddFlagIn(p, CommandNode("deploy"), "target", "t", "", UserCallback(4), Option)
    case Err(e) => Err(e)
    case Ok(p5) =>
      assert "target" in NodeOf(p5, CommandNode("deploy")).value.long by {
        RegisteredAfterAdd(p, CommandNode("deploy"), "target", "t", "", UserCallback(4), Option);
        TrimsToItself("target");
      }
      Ok(MustIn(p5, CommandNode("deploy"), "target", true))
  }

  lemma RegisteredAfterAdd(p: Parser, n: Node, long: string, short: string, description: string, callback: Callback, kind: FlagType)
    requires NodeOf(p, n).Some? && AddFlagIn(p, n, long, short, description, callback, kind).Ok?
    ensures Trim(long) in NodeOf(AddFlagIn(p, n, long, short, description, callback, kind).value, n).value.long
  {
  }

  /** Adding a flag with one-word names to a node of the parser, spelled out. */
  lemma FlagAddedIn(p: Parser, n: Node, long: string, short: string, callback: Callback, kind: FlagType)
    requires NodeOf(p, n).Some?
    requires ValidName(long) && ValidName(short)
    requires long !in NodeOf(p, n).value.long && short !in NodeOf(p, n).value.short
    ensures var c := NodeOf(p, n).value;
            var f := Flag(long, short, "", kind, callback, false);
            AddFlagIn(p, n, long, short, "", callback, kind)
            == Ok(WithNode(p, n, c.(long := c.long[long := f], short := c.short[short := f])))
  {
    TrimsToItself(long);
    TrimsToItself(short);
  }

  lemma OverwriteTwice<K, V>(m: map<K, V>, k: K, a: V, b: V)
    ensures m[k := a][k := b] == m[k := b]
  {
  }

  /** The parsers the scenarios use are exactly what the construction calls build. */
  lemma AppIsBuilt(globalTarget: bool)
    ensures BuildApp(globalTarget) == Ok(if globalTarget then AppWithGlobalTarget else App)
  {
    var root := if globalTarget then TargetRoot else AppRoot;
    RootStageBuilds(globalTarget);
    CommandStageBuilds(root);
    DeployStageBuilds(root);
  }

  lemma RootStageBuilds(globalTarget: bool)
    ensures RootStage(globalTarget) == Ok(Parser(if globalTarget then TargetRoot else AppRoot, map[], Help))
  {
    NewAppParser();
    VerboseAdded();
    if globalTarget {
      GlobalTargetAdded();
    }
  }

  lemma NewAppParser()
    ensures NewParser("app") == Parser(BareRoot, map[], Help)
  {
  }

  lemma VerboseAdded()
    ensures AddFlagIn(Parser(BareRoot, map[], Help), RootNode, "verbose", "v", "", UserCallback(1), Switch)
         == Ok(Parser(AppRoot, map[], Help))
  {
    FlagAddedIn(Parser(BareRoot, map[], Help), RootNode, "verbose", "v", UserCallback(1), Switch);
  }

  lemma GlobalTargetAdded()
    ensures AddFlagIn(Parser(AppRoot, map[], Help), RootNode, "target", "T", "", UserCallback(5), Option)
         == Ok(Parser(TargetRoot, map[], Help))
  {
    FlagAddedIn(Parser(AppRoot, map[], Help), RootNode, "target", "T", UserCallback(5), Option);
  }

  lemma CommandStageBuilds(root: Command)
    ensures CommandStage(Parser(root, map[], Help)) == Ok(Parser(root, map["build" := Build, "deploy" := BareDeploy], Help))
  {
  }

  lemma DeployStageBuilds(root: Command)
    ensures DeployTargetStage(Parser(root, map["build" := Build, "deploy" := BareDeploy], Help))
         == Ok(Parser(root, map["build" := Build, "deploy" := Deploy], Help))
  {
    DeployTargetAdded(root);
    DeployMadeMandatory(root);
  }

  lemma DeployTargetAdded(root: Command)
    ensures AddFlagIn(Parser(root, map["build" := Build, "deploy" := BareDeploy], Help),
                      CommandNode("deploy"), "target", "t", "", UserCallback(4), Option)
         == Ok(Parser(root, map["build" := Build, "deploy" := LooseDeploy], Help))
  {
    var p4 := Parser(root, map["build" := Build, "deploy" := BareDeploy], Help);
    FlagAddedIn(p4, CommandNode("deploy"), "target", "t", UserCallback(4), Option);
    OverwriteTwice(map["build" := Build], "deploy", BareDeploy, LooseDeploy);
  }

  lemma DeployMadeMandatory(root: Command)
    ensures MustIn(Parser(root, map["build" := Build, "deploy" := LooseDeploy], Help), CommandNode("deploy"), "target", true)
         == Parser(root, map["build" := Build, "deploy" := Deploy], Help)
  {
    assert MustFlag(LooseDeploy, "target", true) == Deploy by {
      assert Must(LooseTarget, true) == Target;
      OverwriteTwice(map[], "target", LooseTarget, Target);
      OverwriteTwice(map[], "t", LooseTarget, Target);
    }
    OverwriteTwice(map["build" := Build], "deploy", LooseDeploy, Deploy);
  }

  /**
    The "test" parser built as a program would build it: `NewParser("test")`,
    a global option --option/-o, then made mandatory.
   */
  function BuildMandatoryTest(): Result<Parser, ConstructionError> {
    var p0 := NewParser("test");
    match AddFlagIn(p0, RootNode, "option", "o", "", UserCallback(6), Option)
    case Err(e) => Err(e)
    case Ok(p1) =>
      assert "option" in NodeOf(p1, RootNode).value.long by {
        RegisteredAfterAdd(p0, RootNode, "option", "o", "", UserCallback(6), Option);
        TrimsToItself("option");
      }
      Ok(MustIn(p1, RootNode, "option", true))
  }

  lemma MandatoryTestIsBuilt()
    ensures BuildMandatoryTest() == Ok(MandatoryTest)
  {
    assert NewParser("test") == Parser(Command("test", "", map[], map[], NilCallback, NoParent), map[], TestHelp);
    FlagAddedIn(NewParser("test"), RootNode, "option", "o", UserCallback(6), Option);
    assert AddFlagIn(NewParser("test"), RootNode, "option", "o", "", UserCallback(6), Option)
        == Ok(Parser(LooseTestRoot, map[], TestHelp));
    assert MustFlag(LooseTestRoot, "option", true) == TestRoot by {
      assert Must(LooseOption, true) == GlobalOption;
      OverwriteTwice(map[], "option", LooseOption, GlobalOption);
      OverwriteTwice(map[], "o", LooseOption, GlobalOption);
    }
  }

  /** The mandatory check in each scope of the example parsers: only deploy's --target can be missing. */
  lemma DeployMissing(visited: seq<string>)
    ensures MissingMandatoryFlags(Deploy, visited) == if "target" in visited then {} else {"target"}
  {
    forall f | f in Deploy.long.Values
      ensures f == Target
    {
      var k :| k in Deploy.long && Deploy.long[k] == f;
    }
    assert Target in Deploy.long.Values by {
      assert Deploy.long["target"] == Target;
    }
  }

  lemma AppRootMissesNothing(visited: seq<string>)
    ensures MissingMandatoryFlags(AppRoot, visited) == {}
  {
    forall f | f in AppRoot.long.Values
      ensures !f.mandatory
    {
      var k :| k in AppRoot.long && AppRoot.long[k] == f;
    }
  }

  lemma TargetRootMissesNothing(visited: seq<string>)
    ensures MissingMandatoryFlags(TargetRoot, visited) == {}
  {
    forall f | f in TargetRoot.long.Values
      ensures !f.mandatory
    {
      var k :| k in TargetRoot.long && TargetRoot.long[k] == f;
    }
  }

  lemma LeavesMissNothing(visited: seq<string>)
    ensures MissingMandatoryFlags(Build, visited) == {}
    ensures MissingMandatoryFlags(Help, visited) == {}
  {
  }

  /** The flag tokens the scenarios use, resolved in their scopes. */
  lemma DeployResolvesT()
    ensures LookupFlag(Deploy, "-t") == Some(Target)
  {
    assert "-t"[1..] == "t";
  }

  lemma TargetRootResolvesTarget()
    ensures LookupFlag(TargetRoot, "--target") == Some(RootTarget)
  {
    assert "--target"[2..] == "target";
  }

  /** Reading off a parse from its scan. */
  lemma ParseOf(p: Parser, args: seq<string>, calls: seq<Deferred>, l: seq<string>)
    requires Scan(p, args, Initial(p)) == Scanned(calls, l)
    ensures Parse(p, args) == Parsed(RunAll(calls, l), l)
  {
  }

  lemma RunTwo(a: Deferred, b: Deferred, l: seq<string>)
    ensures RunAll([a, b], l) == [Execute(a, l), Execute(b, l)]
  {
  }

  /** The end of the input: the scan stops with what it has. */
  lemma NothingLeft(p: Parser, st: ScanState)
    ensures Scan(p, [], st) == Scanned(st.calls, st.leftovers)
  {
  }

  /*
    Each scenario below walks the scan one token at a time. The states are
    written in the form the step lemmas produce, so that each step only has
    to match the resolved flag or command, not recompute the sequences.
   */

  /** A command and a positional argument: the command receives it. */
  lemma BuildWithArgument()
    ensures Parse(App, ["build", "x.txt"])
         == Parsed([CommandInvoked(UserCallback(2), "build", ["x.txt"])], ["x.txt"])
  {
    var st0 := Initial(App);
    var st1 := st0.(scope := Build, calls := st0.calls + [DeferCommand(Build.callback, "build")]);
    var st2 := st1.(leftovers := st1.leftovers + ["x.txt"]);
    assert Scan(App, ["x.txt"], st1) == Scan(App, [], st2) by {
      LeavesMissNothing([]);
      PlainTokenIsLeftover(App, "x.txt", [], st1);
      assert ["x.txt"] == ["x.txt"] + [];
    }
    assert Scan(App, ["build", "x.txt"], st0) == Scan(App, ["x.txt"], st1) by {
      AppRootMissesNothing([]);
      assert App.commands["build"] == Build;
      PlainTokenDispatchesCommand(App, "build", ["x.txt"], st0);
      assert ["build", "x.txt"] == ["build"] + ["x.txt"];
    }
    NothingLeft(App, st2);
    assert st2.calls == [DeferCommand(UserCallback(2), "build")] && st2.leftovers == ["x.txt"];
    ParseOf(App, ["build", "x.txt"], st2.calls, st2.leftovers);
  }

  /** An unknown flag: an error naming the token and the scope, no leftovers, nothing run. */
  lemma UnknownGlobalFlag()
    ensures Parse(App, ["--unknown"]) == ParseFailed(UnknownFlag("--unknown", "app"), [])
  {
    assert Scan(App, ["--unknown"], Initial(App)) == ScanFailed(UnknownFlag("--unknown", "app"), []) by {
      assert "--unknown"[2..] == "unknown";
      UnknownFlagAborts(App, "--unknown", [], Initial(App));
      assert ["--unknown"] == ["--unknown"] + [];
    }
  }

  /** A command whose mandatory flag is absent, with nothing after it: no error, because the input ends first. */
  lemma MandatoryNotCheckedAtEnd()
    ensures Parse(App, ["deploy"]) == Parsed([CommandInvoked(UserCallback(3), "deploy", [])], [])
  {
    var st0 := Initial(App);
    var st1 := st0.(scope := Deploy, calls := st0.calls + [DeferCommand(Deploy.callback, "deploy")]);
    assert Scan(App, ["deploy"], st0) == Scan(App, [], st1) by {
      AppRootMissesNothing([]);
      assert App.commands["deploy"] == Deploy;
      PlainTokenDispatchesCommand(App, "deploy", [], st0);
      assert ["deploy"] == ["deploy"] + [];
    }
    NothingLeft(App, st1);
    assert st1.calls == [DeferCommand(UserCallback(3), "deploy")];
    ParseOf(App, ["deploy"], st1.calls, []);
  }

  /** The same command followed by a plain token: now the check runs, in the command's scope, and fails. */
  lemma MandatoryCheckedAtPlainToken()
    ensures Parse(App, ["deploy", "x"]) == ParseFailed(MissingMandatory({"target"}, "deploy"), [])
  {
    var st0 := Initial(App);
    var st1 := st0.(scope := Deploy, calls := st0.calls + [DeferCommand(Deploy.callback, "deploy")]);
    assert Scan(App, ["x"], st1) == ScanFailed(MissingMandatory({"target"}, "deploy"), []) by {
      DeployMissing([]);
      PlainTokenChecksMandatory(App, "x", [], st1);
      assert ["x"] == ["x"] + [];
    }
    assert Scan(App, ["deploy", "x"], st0) == Scan(App, ["x"], st1) by {
      AppRootMissesNothing([]);
      assert App.commands["deploy"] == Deploy;
      PlainTokenDispatchesCommand(App, "deploy", ["x"], st0);
      assert ["deploy", "x"] == ["deploy"] + ["x"];
    }
  }

  /**
    The option given by its short name: the call carries the long name, and
    it runs after the command's own callback, in recognition order.
   */
  lemma CommandRunsBeforeItsFlags()
    ensures Parse(App, ["deploy", "-t", "prod"])
         == Parsed([CommandInvoked(UserCallback(3), "deploy", []), FlagInvoked(UserCallback(4), "target", "prod")], [])
  {
    DeployTakesValue("prod");
  }

  /** An option takes the next token as its value even when that token looks like a flag. */
  lemma OptionValueMayStartWithDash()
    ensures Parse(App, ["deploy", "-t", "-v"])
         == Parsed([CommandInvoked(UserCallback(3), "deploy", []), FlagInvoked(UserCallback(4), "target", "-v")], [])
  {
    DeployTakesValue("-v");
  }

  /** "deploy -t v" for any value v, flag-like or not. */
  lemma DeployTakesValue(v: string)
    ensures Parse(App, ["deploy", "-t", v])
         == Parsed([CommandInvoked(UserCallback(3), "deploy", []), FlagInvoked(UserCallback(4), "target", v)], [])
  {
    var st0 := Initial(App);
    var st1 := st0.(scope := Deploy, calls := st0.calls + [DeferCommand(Deploy.callback, "deploy")]);
    var st2 := st1.(visited := st1.visited + [Target.long], calls := st1.calls + [DeferFlag(Target.callback, Target.long, v)]);
    assert Scan(App, ["-t", v], st1) == Scan(App, [], st2) by {
      DeployResolvesT();
      StepOption(App, "-t", v, [], st1);
      assert ["-t", v] == ["-t", v] + [];
    }
    assert Scan(App, ["deploy", "-t", v], st0) == Scan(App, ["-t", v], st1) by {
      AppRootMissesNothing([]);
      assert App.commands["deploy"] == Deploy;
      PlainTokenDispatchesCommand(App, "deploy", ["-t", v], st0);
      assert ["deploy", "-t", v] == ["deploy"] + ["-t", v];
    }
    NothingLeft(App, st2);
    assert st2.calls == [DeferCommand(UserCallback(3), "deploy"), DeferFlag(UserCallback(4), "target", v)];
    ParseOf(App, ["deploy", "-t", v], st2.calls, []);
    RunTwo(st2.calls[0], st2.calls[1], []);
  }

  /**
    Visited flags are matched by long name across scopes: a global
    --target satisfies the command's mandatory --target.
   */
  lemma VisitedSharedAcrossScopes()
    ensures Parse(AppWithGlobalTarget, ["--target", "a", "deploy", "x"])
         == Parsed([FlagInvoked(UserCallback(5), "target", "a"), CommandInvoked(UserCallback(3), "deploy", ["x"])], ["x"])
  {
    var p := AppWithGlobalTarget;
    var st0 := Initial(p);
    var st1 := st0.(visited := st0.visited + [RootTarget.long], calls := st0.calls + [DeferFlag(RootTarget.callback, RootTarget.long, "a")]);
    var st2 := st1.(scope := Deploy, calls := st1.calls + [DeferCommand(Deploy.callback, "deploy")]);
    var st3 := st2.(leftovers := st2.leftovers + ["x"]);
    assert Scan(p, ["x"], st2) == Scan(p, [], st3) by {
      assert st2.visited == ["target"];
      DeployMissing(["target"]);
      PlainTokenIsLeftover(p, "x", [], st2);
      assert ["x"] == ["x"] + [];
    }
    assert Scan(p, ["deploy", "x"], st1) == Scan(p, ["x"], st2) by {
      TargetRootMissesNothing(st1.visited);
      assert p.commands["deploy"] == Deploy;
      PlainTokenDispatchesCommand(p, "deploy", ["x"], st1);
      assert ["deploy", "x"] == ["deploy"] + ["x"];
    }
    assert Scan(p, ["--target", "a", "deploy", "x"], st0) == Scan(p, ["deploy", "x"], st1) by {
      TargetRootResolvesTarget();
      StepOption(p, "--target", "a", ["deploy", "x"], st0);
      assert ["--target", "a", "deploy", "x"] == ["--target", "a"] + ["deploy", "x"];
    }
    NothingLeft(p, st3);
    assert st3.calls == [DeferFlag(UserCallback(5), "target", "a"), DeferCommand(UserCallback(3), "deploy")];
    assert st3.leftovers == ["x"];
    ParseOf(p, ["--target", "a", "deploy", "x"], st3.calls, st3.leftovers);
    RunTwo(st3.calls[0], st3.calls[1], ["x"]);
  }

  /** Leftovers that precede the command are passed to it as well. */
  lemma CommandSeesEarlierLeftovers()
    ensures Parse(App, ["a", "build", "b"])
         == Parsed([CommandInvoked(UserCallback(2), "build", ["a", "b"])], ["a", "b"])
  {
    var st0 := Initial(App);
    var st1 := st0.(leftovers := st0.leftovers + ["a"]);
    var st2 := st1.(scope := Build, calls := st1.calls + [DeferCommand(Build.callback, "build")]);
    var st3 := st2.(leftovers := st2.leftovers + ["b"]);
    assert Scan(App, ["b"], st2) == Scan(App, [], st3) by {
      LeavesMissNothing([]);
      PlainTokenIsLeftover(App, "b", [], st2);
      assert ["b"] == ["b"] + [];
    }
    assert Scan(App, ["build", "b"], st1) == Scan(App, ["b"], st2) by {
      AppRootMissesNothing([]);
      assert App.commands["build"] == Build;
      PlainTokenDispatchesCommand(App, "build", ["b"], st1);
      assert ["build", "b"] == ["build"] + ["b"];
    }
    assert Scan(App, ["a", "build", "b"], st0) == Scan(App, ["build", "b"], st1) by {
      AppRootMissesNothing([]);
      PlainTokenIsLeftover(App, "a", ["build", "b"], st0);
      assert ["a", "build", "b"] == ["a"] + ["build", "b"];
    }
    NothingLeft(App, st3);
    assert st3.calls == [DeferCommand(UserCallback(2), "build")] && st3.leftovers == ["a", "b"];
    ParseOf(App, ["a", "build", "b"], st3.calls, st3.leftovers);
  }

  /** A second command name switches scope again; both commands run, with the same leftovers. */
  lemma SecondCommandSwitchesAgain()
    ensures Parse(App, ["build", "deploy"])
         == Parsed([CommandInvoked(UserCallback(2), "build", []), CommandInvoked(UserCallback(3), "deploy", [])], [])
  {
    var st0 := Initial(App);
    var st1 := st0.(scope := Build, calls := st0.calls + [DeferCommand(Build.callback, "build")]);
    var st2 := st1.(scope := Deploy, calls := st1.calls + [DeferCommand(Deploy.callback, "deploy")]);
    assert Scan(App, ["deploy"], st1) == Scan(App, [], st2) by {
      LeavesMissNothing([]);
      assert App.commands["deploy"] == Deploy;
      PlainTokenDispatchesCommand(App, "deploy", [], st1);
      assert ["deploy"] == ["deploy"] + [];
    }
    assert Scan(App, ["build", "deploy"], st0) == Scan(App, ["deploy"], st1) by {
      AppRootMissesNothing([]);
      assert App.commands["build"] == Build;
      PlainTokenDispatchesCommand(App, "build", ["deploy"], st0);
      assert ["build", "deploy"] == ["build"] + ["deploy"];
    }
    NothingLeft(App, st2);
    assert st2.calls == [DeferCommand(UserCallback(2), "build"), DeferCommand(UserCallback(3), "deploy")];
    ParseOf(App, ["build", "deploy"], st2.calls, []);
    RunTwo(st2.calls[0], st2.calls[1], []);
  }

  /** Help followed by a command name: the name is a leftover for help, which shows that command's usage. */
  lemma HelpForCommand()
    ensures Parse(App, ["help", "deploy"])
         == Parsed([CommandInvoked(DefaultHelp, "help", ["deploy"])], ["deploy"])
    ensures DefaultHelpPage(App, ["deploy"]) == CommandUsage("deploy")
  {
    var st0 := Initial(App);
    var st1 := st0.(scope := App.help, calls := st0.calls + [DeferCommand(App.help.callback, "help")]);
    var st2 := st1.(leftovers := st1.leftovers + ["deploy"]);
    assert Scan(App, ["deploy"], st1) == Scan(App, [], st2) by {
      LeavesMissNothing([]);
      PlainTokenIsLeftover(App, "deploy", [], st1);
      assert ["deploy"] == ["deploy"] + [];
    }
    assert Scan(App, ["help", "deploy"], st0) == Scan(App, ["deploy"], st1) by {
      AppRootMissesNothing([]);
      PlainTokenEntersHelp(App, "help", ["deploy"], st0);
      assert ["help", "deploy"] == ["help"] + ["deploy"];
    }
    NothingLeft(App, st2);
    assert st2.calls == [DeferCommand(DefaultHelp, "help")] && st2.leftovers == ["deploy"];
    ParseOf(App, ["help", "deploy"], st2.calls, st2.leftovers);
  }

  /** Help is entered again each time its name appears. */
  lemma HelpReentered()
    ensures Parse(App, ["help", "help"])
         == Parsed([CommandInvoked(DefaultHelp, "help", []), CommandInvoked(DefaultHelp, "help", [])], [])
  {
    var st0 := Initial(App);
    var st1 := st0.(scope := App.help, calls := st0.calls + [DeferCommand(App.help.callback, "help")]);
    var st2 := st1.(scope := App.help, calls := st1.calls + [DeferCommand(App.help.callback, "help")]);
    assert Scan(App, ["help"], st1) == Scan(App, [], st2) by {
      LeavesMissNothing([]);
      PlainTokenEntersHelp(App, "help", [], st1);
      assert ["help"] == ["help"] + [];
    }
    assert Scan(App, ["help", "help"], st0) == Scan(App, ["help"], st1) by {
      AppRootMissesNothing([]);
      PlainTokenEntersHelp(App, "help", ["help"], st0);
      assert ["help", "help"] == ["help"] + ["help"];
    }
    NothingLeft(App, st2);
    assert st2.calls == [DeferCommand(DefaultHelp, "help"), DeferCommand(DefaultHelp, "help")];
    ParseOf(App, ["help", "help"], st2.calls, []);
    RunTwo(st2.calls[0], st2.calls[1], []);
  }

  /** A mandatory global option and an unregistered plain token: the root's check fails. */
  lemma RootMandatoryAtFirstPlainToken()
    ensures Parse(MandatoryTest, ["command"]) == ParseFailed(MissingMandatory({"option"}, "test"), [])
  {
    var p := MandatoryTest;
    assert Scan(p, ["command"], Initial(p)) == ScanFailed(MissingMandatory({"option"}, "test"), []) by {
      assert Consistent(TestRoot);
      assert MissingMandatoryFlags(TestRoot, []) == {"option"};
      PlainTokenChecksMandatory(p, "command", [], Initial(p));
      assert ["command"] == ["command"] + [];
    }
  }

  /** `AddCommand` accepts the help node's name: nothing compares the two. */
  lemma ShadowedIsBuilt()
    ensures AddCommand(NewParser("app"), "help", "", UserCallback(9)) == Ok(Shadowed)
  {
    NewAppParser();
  }

  lemma NoFlagsMissNothing(c: Command, visited: seq<string>)
    requires c.long == map[]
    ensures MissingMandatoryFlags(c, visited) == {}
  {
  }

  /** The command test comes first: from the root, the help name dispatches the command registered under it. */
  lemma CommandNamedHelpShadowsHelp()
    ensures Parse(Shadowed, ["help"]) == Parsed([CommandInvoked(UserCallback(9), "help", [])], [])
  {
    var st0 := Initial(Shadowed);
    var st1 := st0.(scope := HelpCommand, calls := st0.calls + [DeferCommand(HelpCommand.callback, "help")]);
    assert Scan(Shadowed, ["help"], st0) == Scan(Shadowed, [], st1) by {
      NoFlagsMissNothing(BareRoot, []);
      assert Shadowed.commands["help"] == HelpCommand;
      PlainTokenDispatchesCommand(Shadowed, "help", [], st0);
      assert ["help"] == ["help"] + [];
    }
    NothingLeft(Shadowed, st1);
    assert st1.calls == [DeferCommand(UserCallback(9), "help")];
    ParseOf(Shadowed, ["help"], st1.calls, []);
  }

  /**
    Once in that command, whose name is the help name, the same token no
    longer dispatches: it enters the help node instead.
   */
  lemma ShadowingCommandThenHelp()
    ensures Parse(Shadowed, ["help", "help"])
         == Parsed([CommandInvoked(UserCallback(9), "help", []), CommandInvoked(DefaultHelp, "help", [])], [])
  {
    var st0 := Initial(Shadowed);
    var st1 := st0.(scope := HelpCommand, calls := st0.calls + [DeferCommand(HelpCommand.callback, "help")]);
    var st2 := st1.(scope := Shadowed.help, calls := st1.calls + [DeferCommand(Shadowed.help.callback, "help")]);
    assert Scan(Shadowed, ["help"], st1) == Scan(Shadowed, [], st2) by {
      NoFlagsMissNothing(HelpCommand, []);
      PlainTokenEntersHelp(Shadowed, "help", [], st1);
      assert ["help"] == ["help"] + [];
    }
    assert Scan(Shadowed, ["help", "help"], st0) == Scan(Shadowed, ["help"], st1) by {
      NoFlagsMissNothing(BareRoot, []);
      assert Shadowed.commands["help"] == HelpCommand;
      PlainTokenDispatchesCommand(Shadowed, "help", ["help"], st0);
      assert ["help", "help"] == ["help"] + ["help"];
    }
    NothingLeft(Shadowed, st2);
    assert st2.calls == [DeferCommand(UserCallback(9), "help"), DeferCommand(DefaultHelp, "help")];
    ParseOf(Shadowed, ["help", "help"], st2.calls, []);
    RunTwo(st2.calls[0], st2.calls[1], []);
  }
}

=== FILE: wrappers.dfy ===
/** Failure-carrying datatypes shared by the construction API and the parser. */
module Wrappers {

  /** A value that may be absent, used for map lookups that can miss. */
  datatype Option<+T> = None | Some(value: T)

  /** The outcome of a construction step: the built value, or the reason it was refused. */
  datatype Result<+T, +E> = Ok(value: T) | Err(error: E)
}
